=== FILE: README.md ===
# termplex in Dafny

termplex opens a tmux workspace for a project directory: an editor grid (by
default `claude`), a sidebar (by default `lazygit`) and an optional server pane.
This project models the three pieces of logic that decide what it does, and
proves what they promise:

- **the layout planner** (`src/layout.ts`): the merge of a partial option bag
  over the defaults, the split of editor panes into two columns, the sidebar
  width, the three-way reading of the `server` setting and the named presets
  (module `Layout`);
- **the key=value store** (`src/config.ts`): the line parser with last-write-wins,
  the serialiser, the seeding of the two files and the project and machine
  configuration operations, over a filesystem that is a map from path to contents
  (module `Config`, with insertion-ordered maps as JavaScript's `Map` keeps them;
  the per-project `readKVFile` shares the parser and reads without seeding);
- **the launcher** (`src/launcher.ts`): the session name, the dependency checks
  (probe, installer lookup, consent, install, re-probe, exit 1 on every failure),
  `buildSession` as a generator of abstract tmux operations, and `launch`, which
  checks the directory, ensures tmux and the configured commands, and then joins
  or builds the session (modules `Session`, `Environment`, `Dependencies`,
  `Launcher`).

The outside world is a `Machine` value. It holds the platform, the commands on
the PATH, the answers the user types, what each install command installs, the
existing directories and tmux sessions, and the tmux commands that fail. Every
interaction is recorded as an `Effect`, so that ordering properties ("tmux is
ensured before anything else", "an existing session is never rebuilt") are
statements about a trace. When the answers run out before a prompt is answered,
the prompt never resolves: the dependency check ends as `NoAnswer` and launch as
`Abandoned`, with nothing installed and no exit. `Text` holds the JavaScript string functions the code
relies on: `trim`, `split`, `join`, `indexOf`, `toLowerCase` and `parseInt`.

`buildSession` is modelled twice. `Session.SessionOps` states the operation
sequence declaratively. `Session.BuildSession` is the loop version, proved equal
to it. A pane is named by the step that created it (`Root`, `RightColumn`,
`LeftPane(i)`, `RightPane(i)`), not by the id tmux returns.

Some behaviours of the code are proved as they are, because they are what the
code does, even where the repository's tests expect something else:

- One editor pane still produces a right-column editor pane, since the 50 percent
  split at `src/launcher.ts:194` is unconditional. With one editor pane and a
  server, the right column never reaches its server split, so the `cli` preset
  plans a server that no pane runs (`Session.CliPresetLosesServer`).
- The tests at `src/launcher.test.ts:165-202` describe a `launch(dir, {layout})`
  signature with a configuration cascade and one split for a single pane. The
  `launch` in `src/launcher.ts` takes only the directory and reads the machine
  configuration. The model follows `src/launcher.ts`.

## Model

| member | source | states |
|---|---|---|
| Text.ParseInt | src/launcher.ts:180-181 | `parseInt(s, 10)` is NaN exactly when no decimal digit follows the optional sign after leading whitespace |
| Text.ParseIntOfIntText | src/launcher.ts:180-181 | the decimal text of any integer, followed by any text not starting with a digit, reads back as that integer (so "4", "-2", "3.5", "12px" read 4, -2, 3, 12) |
| Text.Trim | src/config.ts:19 | `trim` removes whitespace only from the ends: the result neither starts nor ends with whitespace |
| Text.TrimKeepsInfix | src/config.ts:19 | the trimmed text is a slice of the original with only whitespace before and after it |
| Text.FirstField | src/launcher.ts:245 | `split(" ")[0]` is the whole string when it holds no space, and otherwise the text before its first space |
| Text.SplitJoin | src/config.ts:21-31 | splitting the newline join of lines that hold no newline gives the lines back, which is the basis of the file round trip |
| Layout.ParseServer | src/layout.ts:31-39 | "" and "false" give no server; "true" gives a server pane with a plain shell; any other string gives a server pane running exactly that string |
| Layout.ServerDirectiveRoundTrip | src/layout.ts:31-39 | every reading the server setting can have is produced by its canonical text, so the reading loses nothing |
| Layout.ServerTextRoundTrip | src/layout.ts:31-39 | reading a server setting and writing the reading back returns the setting, except that "" is written "false" |
| Layout.LeftColumnCount | src/layout.ts:61 | the left column count `l` satisfies n <= 2l <= n+1, i.e. it is `Math.ceil(n / 2)` for every integer pane count |
| Layout.LeftColumnIsCeiling | src/layout.ts:61 | no smaller count covers half the panes: the left column count is the least `l` with 2l >= n |
| Layout.PlanLayout | src/layout.ts:59-74 | editor and sidebar widths add up to 100; the two columns add up to the pane count, with the left column holding the larger half; editor and sidebar commands pass through; the server fields follow the three-way reading; an empty secondary editor becomes null |
| Layout.ColumnTable | src/layout.ts:61-67 | one to six panes split into columns (1,0), (1,1), (2,1), (2,2), (3,2), (3,3) |
| Layout.DefaultPlan | src/layout.ts:10-17 | an empty option bag plans claude and lazygit, widths 75/25, columns (2,1), a server pane with a plain shell and no secondary editor |
| Layout.SidebarComplement | src/layout.ts:64-65 | the sidebar width is 100 minus any editor width, unclamped |
| Layout.OverrideIsFieldwise | src/layout.ts:60 | supplying one option changes exactly that field of the merged options, and strings (the empty string included) pass through verbatim |
| Layout.PresetNamed | src/layout.ts:51-53 | a recognised name is the key of the preset it names; an unrecognised one is the key of none |
| Layout.PresetNamesExactly | src/layout.ts:41-53 | exactly minimal, full, pair, cli and mtop are preset names |
| Layout.PresetNameRoundTrip | src/layout.ts:41-53 | reading a preset's own key gives that preset back |
| Layout.PresetPlans | src/layout.ts:43-57 | planning each preset alone: minimal gives columns (1,0) and no server; full (2,1) with a server; pair (1,1) with a server; cli (1,0) with server command "npm login"; mtop the secondary editor "mtop"; editor, sidebar and widths stay at their defaults |
| Config.MapLaws | src/config.ts:51-61 | `Map.set` then `get` reads the value, leaves every other key alone, keeps an existing key's position and puts a new key last; `delete` makes the key absent and leaves the others alone |
| Config.ParseLine | src/config.ts:22-24 | a line without '=' yields nothing; otherwise the key holds no '=' and key, '=' and value make up the line, so the value may contain '=' |
| Config.ParseLineExactly | src/config.ts:22-24 | a line splits into key k and value v exactly when it reads `k=v` and k holds no '=' |
| Config.AbsentWhenNoLine | src/config.ts:21-25 | a key is absent from the parsed map exactly when no line names it; lines without '=' contribute nothing |
| Config.LastWriteWins | src/config.ts:21-25 | a key parses to v exactly when the last line that names the key reads `key=v` |
| Config.ParsedStoreShape | src/config.ts:21-25 | for lines holding no newline, as the split gives them, no parsed key holds '=' or a newline, and no parsed value holds a newline |
| Config.EmptyInputs | src/config.ts:36-40 | a missing file, and a file that is empty once trimmed, read as the empty map |
| Config.ReadKVFileLaws | src/config.ts:36-47 | the per-project readKVFile reads a missing file as the empty map, reads back exactly the map writeKV's format put at the path (entries and order) when it survives the round trip, and looks at no other file |
| Config.Serialize | src/config.ts:29-32 | the written file always ends with a newline |
| Config.ParseSerialize | src/config.ts:15-32 | reading back what writeKV wrote gives the same map, entries and order, when no key holds '=' or a newline or starts with whitespace and no value holds a newline or ends with whitespace |
| Config.EnsureConfig | src/config.ts:9-13 | seeding creates the registry empty and the configuration as `editor=claude` when missing, and leaves every existing file untouched |
| Config.EnsureConfigIdempotent | src/config.ts:9-13 | seeding twice is seeding once |
| Config.FreshMachine | src/config.ts:9-27 | on a fresh machine the configuration reads editor=claude and no other key, and no project is registered |
| Config.FreshFilesClean | src/config.ts:9-27 | what a fresh machine reads back satisfies the round-trip condition of both files |
| Config.WriteThenRead | src/config.ts:15-32 | after seeding, writing a store to one of the two files reads it back unchanged, and the other file reads as before, provided the store survives the round trip: no key holds '=' or a newline or starts with whitespace, and no value holds a newline or ends with whitespace |
| Config.SetThenGetConfig | src/config.ts:73-81 | for a key holding no '=' or newline and not starting with whitespace, a value holding no newline and not ending with whitespace, and files already in round-trip shape: after setConfig(k, v), getConfig(k) is v whatever it held before, every other key reads as before, the files stay in round-trip shape, and the project registry is unchanged |
| Config.AddThenGetProject | src/config.ts:51-65 | under the same conditions on the name, the path and the files: after addProject(n, p), getProject(n) is p (overwriting an earlier path), other projects read as before, and the machine configuration is unchanged |
| Config.RemoveThenGetProject | src/config.ts:57-65 | for files already in round-trip shape: after removeProject(n), getProject(n) is absent, other projects read as before, and the machine configuration is unchanged |
| Session.Shell | src/launcher.ts:19 | an empty command gives a split with no command part (a plain shell); any other command is passed as it is |
| Session.BuildSession | src/launcher.ts:186-226 | the loop version issues exactly the declared sequence: new-session, display, sidebar split, right-column split, the left and right column splits, the respawn when there is an editor, select-pane |
| Session.LeftColumnLoop | src/launcher.ts:196-203 | the left column loop issues the declared left splits, each splitting the pane made before it |
| Session.RightColumnLoop | src/launcher.ts:205-218 | the right column loop issues the declared right splits, the server command on the last one |
| Session.SplitPercentBounds | src/launcher.ts:199-201 | every vertical split percentage floor(100k/(k+1)), with k >= 1 panes still to place, lies in [50, 99] |
| Session.SplitPercentIsFloor | src/launcher.ts:199-201 | the integer percentage is k/(k+1) rounded down to a whole percent |
| Session.ColumnSharesEqual | src/launcher.ts:196-203 | splitting a column of height h with the ideal fractions k/(k+1), (k-1)/k, ..., 1/2 (each split keeping that fraction for the panes still to place) leaves k+1 panes of height h/(k+1) each: the schedule is an equal division |
| Session.LeftScheduleEqualises | src/launcher.ts:196-203 | the left column's split percentages are, split by split, the ideal equal-division fractions rounded down to a whole percent (each within 1% below the ideal), and that ideal schedule gives every pane of the column the same height |
| Session.RightScheduleEqualises | src/launcher.ts:205-218 | the same for the right column: one split per extra pane, server included, each the ideal equal-division fraction rounded down to a whole percent, and the ideal schedule divides the column equally |
| Session.SessionShape | src/launcher.ts:186-226 | the sequence starts with new-session and ends with select-pane on the root; the sidebar split is horizontal at the sidebar width, the column split horizontal at 50; its length counts both columns' extra panes and the respawn |
| Session.SplitTotal | src/launcher.ts:186-218 | the session issues two column splits plus one per iteration of each column loop, an empty loop counting zero |
| Session.PaneCount | src/launcher.ts:186-218 | with editors in both columns the session has one pane per editor, plus the sidebar, plus the server pane when planned |
| Session.ServerPaneLast | src/launcher.ts:205-218 | with a server and a right-column editor, the last right split is the server pane at 50 percent running the server command, and every other right split runs the editor |
| Session.NoServerAllEditors | src/launcher.ts:205-218 | without a server every extra right pane runs the editor |
| Session.ServerDroppedWithoutRightEditors | src/launcher.ts:206-209 | with a server but no right-column editor, the right column gets no extra split, so no pane runs the server |
| Session.CliPresetLosesServer | src/launcher.ts:193-218 | the cli preset plans server "npm login", yet its session holds the sidebar and two editor panes and no server pane |
| Session.DefaultSession | src/launcher.ts:186-226 | the default plan gives: new-session, display, sidebar at 25, editor at 50, a left editor at 50, the right server shell at 50, respawn with claude, select-pane |
| Session.NoEmptyCommands | src/launcher.ts:190-223 | no split and no respawn carries an empty command |
| Environment.NextReply | src/launcher.ts:64-71 | a prompt takes the first typed answer off the input and changes nothing else; with the input ended there is no answer |
| Environment.RunInstall | src/launcher.ts:121-129 | an install command exits non-zero exactly when the machine does not know it; otherwise it adds exactly its binaries to the PATH and changes nothing else |
| Dependencies.FirstManager | src/launcher.ts:44-58 | managers are probed in order until one is found; the installer is the found one's command, and every manager before it was probed and missing |
| Dependencies.TmuxInstallerChoice | src/launcher.ts:34-62 | macOS probes brew and installs with it when found; Linux takes the first of apt-get, dnf, yum, pacman found, with the matching install command; any other platform has no installer |
| Dependencies.LinuxTmuxInstaller | src/launcher.ts:44-58 | on Linux, each of the five cases (apt-get, dnf, yum, pacman first found, or none) gives its install command and the probes made |
| Dependencies.KnownInstaller | src/launcher.ts:74-95 | claude installs with npm; lazygit installs with brew when brew is found on macOS and Linux; no other command has an installer |
| Dependencies.ConsentsExactly | src/launcher.ts:114-117 | a raw answer (which the prompt at line 68 trims and lower-cases) consents exactly when its trimmed text is empty, "y"/"Y", or "yes" in any mix of case; every other answer refuses |
| Dependencies.LowerYesWord | src/launcher.ts:114-117 | a trimmed answer lower-cases to "", "y" or "yes" exactly when it is empty, "y"/"Y", or "yes" in any mix of case |
| Dependencies.EnterConsents | src/launcher.ts:114-119 | pressing Enter consents |
| Dependencies.CapitalYConsents | src/launcher.ts:114-119 | "Y" consents |
| Dependencies.PaddedYesConsents | src/launcher.ts:114-119 | " yes " consents |
| Dependencies.ShoutedYesConsents | src/launcher.ts:114-119 | "YES" followed by a newline consents |
| Dependencies.RefusingAnswers | src/launcher.ts:114-119 | "n" and "yes please" refuse |
| Dependencies.Refuses | src/launcher.ts:114-119 | any non-empty answer without capital letters or surrounding whitespace other than "y" and "yes" refuses |
| Dependencies.Ensure | src/launcher.ts:97-137 | the check probes first; an installed command returns at once with no prompt; every exit has status 1; going on means the command is installed and nothing was uninstalled; with no installer nothing is asked or installed; the check is left waiting exactly when the command is missing, an installer exists and the input has ended, and then its last effect is the prompt |
| Dependencies.InstallNeedsConsent | src/launcher.ts:113-136 | an install runs only after its prompt was answered with consent; a refusal exits 1 without installing; ended input leaves the prompt unanswered with nothing installed; the check goes on exactly when there is an installer, the user consents, the install succeeds and the command is then found |
| Dependencies.EnsureAll | src/launcher.ts:240-247 | every exit has status 1; going on means every command is installed and nothing was uninstalled; a run left waiting ends on a prompt; when all are installed the run is one probe per command, in order |
| Launcher.BasenameLaws | src/launcher.ts:249 | the basename of `parent/name` is `name`, with or without a trailing slash |
| Launcher.SanitizeExactly | src/launcher.ts:249 | sanitizing leaves only [A-Za-z0-9_-], keeps a name made of them unchanged, changes any other, and is idempotent |
| Launcher.SessionNameShape | src/launcher.ts:249-250 | a session name is "tp-" followed by one character per character of the basename, all of them allowed characters |
| Launcher.SessionNameOfPath | src/launcher.ts:249-250 | the session for `parent/name` (trailing slash or not) is "tp-" and the sanitized `name` |
| Launcher.SanitizeExamples | src/launcher.ts:249 | "my-project" stays as it is and "my app.v2" becomes "my_app_v2" |
| Launcher.ReadSettings | src/launcher.ts:237-239 | a configured key is used as it is, even when empty; only a missing key falls back to claude, lazygit, true, 3 or 75 |
| Launcher.DefaultSettings | src/launcher.ts:237-239 | a fresh machine reads the defaults, with the editor coming from the seeded configuration |
| Launcher.SettingsOptions | src/launcher.ts:178-184 | planLayout receives the configured editor, sidebar and server verbatim, the numbers parseInt reads from the pane count and width, and no secondary editor |
| Launcher.CommandsToCheck | src/launcher.ts:240-247 | the commands checked are the editor when not empty, the sidebar when not empty, and the first word of a server that is not "", "true" or "false", one each and nothing else, in that order: the editor first, the sidebar next, the server's first word last |
| Launcher.DefaultCommands | src/launcher.ts:240-247 | an untouched configuration checks claude, then lazygit |
| Launcher.CustomServerChecked | src/launcher.ts:243-247 | a custom server command adds its first word to the commands checked |
| Launcher.ServerCommandChecked | src/launcher.ts:243-247 | with server "npm run dev" the commands checked are claude, lazygit, npm |
| Launcher.RunTmux | src/launcher.ts:8-10 | tmux commands run in order and each one's effect is that command: a run that goes through issues every command, one that throws has issued a non-empty prefix of them, and a first command that fails is the only one issued |
| Launcher.RunTmuxSucceeds | src/launcher.ts:8-10 | when no command is broken and only the first creates a session, under a free name, the run goes through |
| Launcher.RunTmuxStopsAtBroken | src/launcher.ts:8-10 | a broken command at index i makes the run throw after at most i+1 commands |
| Launcher.RunTmuxStopsAtEveryBroken | src/launcher.ts:8-10 | for every broken command, the run throws at it or before it |
| Launcher.RunTmuxFailsAtCause | src/launcher.ts:8-10 | the last command of a run that throws is broken or a new-session (whose name is taken) |
| Launcher.RunTmuxFailsFirst | src/launcher.ts:8-10 | no command before the one a run throws at is broken |
| Launcher.BuildRun | src/launcher.ts:262-268 | a build followed by the attach, whose failure is swallowed, ends built, with every command run and then the attach, or crashed, with a non-empty prefix of the commands run and no attach |
| Launcher.BuildRunSucceeds | src/launcher.ts:262-268 | a build in which no command is broken and only the first creates a session, under a free name, ends built |
| Launcher.BuildRunCrashCause | src/launcher.ts:262-268 | a crashed build stopped at a command that is broken or creates a session (the first one only on a taken name), and no command before it is broken |
| Launcher.BuildRunBuiltExactly | src/launcher.ts:262-268 | when only the first command creates the session, the build ends built exactly when the name is free and no command is broken |
| Launcher.FreshBuildCrashCause | src/launcher.ts:262-268 | when only the first command creates the session, a crashed build ran no broken command before the one it stopped at, and on a free name that one is broken |
| Launcher.Preflight | src/launcher.ts:229-247 | a missing directory exits 1 before any probe; otherwise tmux is ensured first, its whole trace a prefix of the run, and when ensuring tmux does not go on the run is exactly that; every exit has status 1; a run left waiting ends on a prompt; going on means tmux and every configured command are installed |
| Launcher.BuildAndAttach | src/launcher.ts:262-268 | buildSession and the attach end built exactly when the session name is free and none of buildSession's commands is broken, and then every command runs and the attach follows (an attach failure is swallowed); otherwise launch ends with the exception, having run a non-empty prefix of the commands and no attach |
| Launcher.BuildCrashCause | src/launcher.ts:186-226 | when buildSession throws, no command before the one it stopped at is broken, and on a free name the one it stopped at is broken: the session may already exist when it throws |
| Launcher.SessionStep | src/launcher.ts:252-262 | corrected (the code as written rebuilds when the attach fails; see Findings): an existing session is only queried and attached to, never rebuilt; a missing one is built, or the build throws |
| Launcher.SessionStepAsWritten | src/launcher.ts:252-262 | as written: an existing session with a working attach is joined after one query and one attach; when that attach fails the step goes on to build after the attach, ending built or crashed but never joined; a missing session is built or the build throws |
| Launcher.LaunchWith | src/launcher.ts:229-269 | launch with the corrected session step: every exit has status 1; a missing directory exits at once with nothing done; a launch left waiting ends on a prompt |
| Launcher.LaunchAsWrittenWith | src/launcher.ts:229-269 | the same for launch as written: every exit has status 1, a missing directory exits at once with nothing done, and a launch left waiting ends on a prompt |
| Launcher.Launch | src/launcher.ts:229-269 | launch with the corrected session step, from the configuration files: every exit has status 1, a missing directory exits at once with nothing done, and a launch left waiting ends on a prompt |
| Launcher.NothingWithoutDependencies | src/launcher.ts:229-247 | no tmux command runs unless the directory exists and tmux and every configured command were found; an exit or a prompt left unanswered leaves only probes, prompts and installs behind |
| Launcher.PreflightEffects | src/launcher.ts:229-247 | before the session step only probes, prompts and installs happen |
| Launcher.PreflightWhenInstalled | src/launcher.ts:235-247 | with everything installed the preflight is one probe for tmux, then one per configured command, in order |
| Launcher.ExistingSessionJoined | src/launcher.ts:252-257 | in the corrected launch, an existing session is joined with one has-session query and one attach, and no tmux command is issued, whether or not the attach works |
| Launcher.ExistingSessionJoinedAsWritten | src/launcher.ts:252-257 | as written, an existing session whose attach works is joined with one has-session query and one attach, and no tmux command is issued |
| Launcher.MissingSessionBuilt | src/launcher.ts:252-268 | a missing session is built with all of buildSession's commands and then attached |
| Launcher.BuildSucceeds | src/launcher.ts:262-268 | with a free name and no failing command, the build issues every command and then attaches |
| Launcher.OnlyFirstOpCreates | src/launcher.ts:186-226 | buildSession creates the session with its first command and never again |
| Launcher.BuildFailureCrashes | src/launcher.ts:262-268 | when any command of buildSession fails on a free name (a `display` on window 0 under `base-index 1`, say), launch ends with the exception: the trace runs past the has-session query, stops at or before that command, and holds no attach |
| Launcher.PreflightNoAttach | src/launcher.ts:229-247 | nothing before the session step attaches to a session |
| Launcher.FirstBrokenEndsLaunch | src/launcher.ts:186-226 | the first broken command of buildSession is the last thing launch does: the trace is the preflight, the has-session query and the commands up to and including that one |
| Launcher.LaunchBuilds | src/launcher.ts:252-262 | once tmux and every configured command are found and the session is missing, launch is the build after the preflight and the has-session query |
| Launcher.BuildRunCrashesAt | src/launcher.ts:262-268 | a broken command ends a build with the exception at or before it, with only tmux commands after what came before and no attach |
| Launcher.BuildRunStopsAtFirstBroken | src/launcher.ts:262-268 | when only the first command creates a session, on a free name, a build ends with the exception exactly after its first broken command |
| Launcher.StopsAtFirstBroken | src/launcher.ts:8-10 | on such commands the run throws after exactly as many commands as reach the first broken one |
| Launcher.ResolvesUnique | src/launcher.ts:253-256 | a session target resolves to at most one running session |
| Launcher.ExactTargetResolvesName | src/launcher.ts:253-256 | a target written with `=` finds the session of exactly that name and nothing else |
| Launcher.PrefixTargetAgrees | src/launcher.ts:253-256 | a target without `=` resolves as the exact one does unless it is missing and a running session's name extends it |
| Launcher.PrefixTargetJoinsOtherSession | src/launcher.ts:253-256 | for any parent directory, launching in parent/name while only the session of a sibling parent/name+suffix runs (both names clean, suffix non-empty): the target as written resolves to the sibling's session, which is a different session, while the exact target resolves to none |
| Launcher.SessionStepExactLookup | src/launcher.ts:252-262 | the corrected session step joins exactly when the exact target resolves, and joins the session it resolves to |
| Launcher.AttachFailureRebuilds | src/launcher.ts:253-262 | as written, a failing attach to an existing session falls through to buildSession, whose new-session fails on the taken name; the corrected step returns joined |
| Launcher.VersionsAgreeOtherwise | src/launcher.ts:253-262 | the as-written launch, which looks the session up by its exact name, and the corrected version agree on every input except an existing session whose attach fails |
| Launcher.PreflightKeepsTmuxState | src/launcher.ts:229-247 | the dependency checks start no session and do not change what tmux does |

## Left out

- Real effects: `execSync`, `existsSync`, `mkdirSync`, `readline`, `console` and `process.exit` become the `Machine` value, the effect trace and the `Exited`/`Joined`/`Built`/`Crashed`/`Abandoned` endings. The messages printed are not modelled.
- Concrete tmux and shell command strings, quoting, `-P -F "#{pane_id}"` and `exec $SHELL` are abstracted into `TmuxOp` values. Panes are named by the step that created them, so tmux's pane ids and its resolution of pane and window targets are not modelled. Whether a command fails is an input, the machine's set of broken commands: `display -t "<name>:0"` under a `base-index 1` setting is one such command, and any command of the build may be one.
- Launcher.SessionStepAsWritten and Launcher.VersionsAgreeOtherwise: the as-written step decides whether the session exists by its exact name. The has-session and attach-session targets as written carry no `=`, so tmux would also accept the one running session whose name extends it; that lookup is modelled apart by `Launcher.Resolves` and reported under Findings, and the as-written launch does not include it. So the agreement of the two versions is proved for that exact-name lookup; under the prefix lookup they also differ when no `tp-<dir>` session runs but exactly one session whose name extends it does, which the code joins and the corrected version builds anew.
- Config.SetThenGetConfig, Config.AddThenGetProject and Config.RemoveThenGetProject: promised only for keys and values that survive the file format, in files already in that shape. `setConfig("a=b", "c")` writes the line `a=b=c`, which reads back as key "a" with value "b=c"; a key or value with a newline splits into other lines; surrounding whitespace is trimmed away on read. A hand-edited projects file breaks the removal law: "a=1\n a=2" reads as the keys "a" and " a", and after `removeProject("a")` the file is " a=2\n", which reads back as a=2, so `getProject("a")` is "2"; likewise in "b=x \na=1" removing a makes b read back as "x", not "x ".
- `command -v` is a membership test on the PATH set: shell interpretation of the probed name is not modelled.
- Launcher.Launch: reading the configuration seeds the two files on a fresh machine (`ensureConfig`). `Launch` reads its settings through that seeding but does not return the seeded filesystem, because nothing later in launch reads the files again.
- `buildSession` reads the configuration a second time (`src/launcher.ts:178-182`). The model reads it once, since nothing between the two reads writes it.
- Launcher.SettingsOptions: a pane count that `parseInt` reads as NaN is taken as 1, and a NaN editor width as 75. For the pane count the operations are the same as under NaN, since both give no extra split. A NaN width would reach tmux as `NaN%`, which is not modelled.
- JavaScript float arithmetic: `Math.floor((k / (k + 1)) * 100)` is taken as the integer quotient of 100k by k+1. This is claimed for k below 2^40 only. There the rounding error of the two float operations (a few units in 2^-52 relative) is far smaller than the gap 1/(k+1) between 100k/(k+1) and the next integer, and the cases where the product is an integer (k+1 dividing 100) round the same way. Larger pane counts are not modelled. `parseInt` also loses integer precision above 2^53, which the exact parser does not model. Pane counts and widths are integers, never fractions or NaN.
- Layout.PresetNamed and Layout.PresetNamesExactly: `value in PRESETS` also accepts inherited keys such as "toString" (`src/layout.ts:52`). The model accepts exactly the five preset names.
- An option explicitly set to `undefined` in the partial bag (which the spread would copy over a default) is not representable: a field is either supplied or absent.
- `toLowerCase` is modelled on ASCII letters only; other letters keep their case.
- Strings are sequences of Unicode scalar values, not UTF-16 code units. The difference shows only in a directory name with a character outside the Basic Multilingual Plane. The session-name regex replaces such a character with two underscores, one per code unit; the model replaces it with one.
- Input that ends before the prompt is answered: `readline`'s question callback never fires, so the promise from `prompt` (`src/launcher.ts:63-71`) never settles. Nothing is installed, `process.exit` is not called, and the run stops where it is. The model ends such a check with `NoAnswer` and such a launch with `Abandoned`. What Node then does (ending once the event loop has drained, and with what exit status) is not modelled.
- Dependencies.KnownInstaller: `KNOWN_INSTALL_COMMANDS[cmd]` (`src/launcher.ts:74`, `100-101`) also finds keys inherited from `Object.prototype`. For a missing command named "toString", `getInstall()` returns the truthy "[object Undefined]"; for "constructor" it returns an object. Either way the user is prompted and an install is attempted. For "valueOf", "hasOwnProperty" or "__proto__" the call throws a TypeError. The model gives every command other than claude and lazygit no installer, so it promises "no installer" only for names that are not such inherited keys.
- Dependencies.RefusingAnswers: proves only the examples "n" and "yes please". The general statement is Dependencies.Refuses.
- `src/index.ts` (the command-line wiring, path resolution and printing) and `tsup.config.ts` (the build) are not part of this model.
- Concurrent launches racing for one session name are not modelled.

## Findings

| source | as written | input that shows it | evidently intended | confidence | as-written member | corrected member |
|---|---|---|---|---|---|---|
| src/launcher.ts:253-260 | `has-session` and `attach-session` share one `try`, so a failing attach is caught as if the session were missing and launch goes on to `buildSession` | a session `tp-<dir>` already exists and `tmux attach-session` exits non-zero (for example when launched from inside tmux): `new-session` then fails on the taken name and the exception escapes launch | an existing session is only ever attached to; only a missing session leads to a build | not executed | Launcher.AttachFailureRebuilds | Launcher.SessionStep |
| src/launcher.ts:253-256 | `tmux has-session -t "tp-<dir>"` and `attach-session -t "tp-<dir>"` name the session without a leading `=`, and tmux then falls back to the one session whose name starts with the target | launch in /srv/api while no tp-api session runs but tp-api-v2 (of /srv/api-v2) does: has-session succeeds and launch attaches to the other project's session | the session of exactly this directory is joined, and any other is left alone (`-t "=tp-<dir>"`) | not executed | Launcher.PrefixTargetJoinsOtherSession | Launcher.SessionStepExactLookup |

=== FILE: config.dfy ===
/**
 The key=value file format and the two stores kept in it: the project registry
 (name -> path) and the machine configuration (key -> value).

 A parsed file is an insertion-ordered map, as a JavaScript `Map` is: the keys
 in insertion order beside a map from key to value. Setting an existing key keeps
 its position and a new key goes to the end. The filesystem is a map from path to
 file contents.
 */
module Config {
  import opened Optional
  import opened Text

  /** A parsed file: the keys in insertion order and their values. */
  datatype Store = Store(order: seq<string>, values: map<string, string>)

  predicate Distinct(keys: seq<string>) {
    forall i, j :: 0 <= i < j < |keys| ==> keys[i] != keys[j]
  }

  /** The keys listed in `order` are distinct and are exactly the keys of `values`. */
  ghost predicate Valid(st: Store) {
    && Distinct(st.order)
    && (forall k :: k in st.values <==> k in st.order)
  }

  const Empty: Store := Store([], map[])

  /** `map.get(k)`. */
  function Get(st: Store, k: string): Option<string> {
    if k in st.values then Some(st.values[k]) else None
  }

  /** `map.set(k, v)`: a present key keeps its position, a new key goes last. */
  function Set(st: Store, k: string, v: string): (r: Store)
    ensures Valid(st) ==> Valid(r)
  {
    if k in st.values then Store(st.order, st.values[k := v])
    else Store(st.order + [k], st.values[k := v])
  }

  /** The keys without `k`, the others kept in order. */
  function Remove(keys: seq<string>, k: string): (r: seq<string>)
    ensures forall x :: x in r <==> x in keys && x != k
    ensures Distinct(keys) ==> Distinct(r)
  {
    if keys == [] then []
    else if keys[0] == k then Remove(keys[1..], k)
    else
      var rest := Remove(keys[1..], k);
      assert Distinct(keys) ==> keys[0] !in keys[1..];
      [keys[0]] + rest
  }

  /** `map.delete(k)`. */
  function Delete(st: Store, k: string): (r: Store)
    ensures Valid(st) ==> Valid(r)
  {
    Store(Remove(st.order, k), st.values - {k})
  }

  /** set then get reads the value back, leaves every other key alone, and places a new
      key last; delete makes the key absent and leaves every other key alone. */
  lemma MapLaws(st: Store, k: string, v: string, other: string)
    ensures Get(Set(st, k, v), k) == Some(v)
    ensures other != k ==> Get(Set(st, k, v), other) == Get(st, other)
    ensures Get(st, k).Some? ==> Set(st, k, v).order == st.order
    ensures Get(st, k).None? ==> Set(st, k, v).order == st.order + [k]
    ensures Get(Delete(st, k), k) == None
    ensures other != k ==> Get(Delete(st, k), other) == Get(st, other)
  {
  }

  // ---------------------------------------------------------------- the file format

  /** A key and its value, as one line of a file holds them. */
  datatype Entry = Entry(key: string, value: string)

  /** One line: split at its first '='. The key is the text before it and the value all
      of the text after it; a line without '=' yields nothing. */
  function ParseLine(line: string): (r: Option<Entry>)
    ensures r.None? <==> '=' !in line
    ensures r.Some? ==> '=' !in r.value.key && line == r.value.key + "=" + r.value.value
  {
    match IndexOf(line, '=')
    case None => None
    case Some(i) =>
      assert line == line[..i] + "=" + line[i + 1..];
      Some(Entry(line[..i], line[i + 1..]))
  }

  /** A line splits into a given key and value exactly when it is their `k=v` rendering
      and the key holds no '='. */
  lemma ParseLineExactly(line: string, k: string, v: string)
    ensures ParseLine(line) == Some(Entry(k, v)) <==> (line == k + "=" + v && '=' !in k)
  {
    if line == k + "=" + v && '=' !in k {
      assert line[|k|] == '=' && line[..|k|] == k;
      assert IndexOf(line, '=') == Some(|k|);
      assert line[|k| + 1..] == v;
    }
  }

  /** Folds the lines, first to last, into a store: each parsed line is a `set`. */
  function ParseLines(lines: seq<string>): (st: Store)
    ensures Valid(st)
  {
    if lines == [] then Empty
    else
      var before := ParseLines(lines[..|lines| - 1]);
      match ParseLine(lines[|lines| - 1])
      case None => before
      case Some(e) => Set(before, e.key, e.value)
  }

  /** readKVFile / the reading half of readKV, given the file's contents (None: no file). */
  function Parse(contents: Option<string>): (st: Store)
    ensures Valid(st)
  {
    match contents
    case None => Empty
    case Some(text) =>
      var t := Trim(text);
      if t == "" then Empty else ParseLines(Split(t, '\n'))
  }

  /** Renders one entry as its line. */
  function Line(k: string, v: string): string {
    k + "=" + v
  }

  function Lines(st: Store): (r: seq<string>)
    requires Valid(st)
    ensures |r| == |st.order|
    ensures forall i :: 0 <= i < |r| ==> r[i] == Line(st.order[i], st.values[st.order[i]])
  {
    seq(|st.order|, i requires 0 <= i < |st.order| => Line(st.order[i], st.values[st.order[i]]))
  }

  /** writeKV's rendering: `k=v` per entry in map order, joined by newlines, with a
      trailing newline. */
  function Serialize(st: Store): (text: string)
    requires Valid(st)
    ensures text != [] && text[|text| - 1] == '\n'
  {
    Join(Lines(st), '\n') + "\n"
  }

  // ---------------------------------------------------------------- parse properties

  predicate KeyedLine(line: string, k: string) {
    ParseLine(line).Some? && ParseLine(line).value.key == k
  }

  /** `v` is on the last line that names `k`. */
  ghost predicate LastLineFor(lines: seq<string>, k: string, v: string) {
    exists i :: LastLineAt(lines, k, v, i)
  }

  /** Line `i` reads `k=v` and no later line names `k`. */
  predicate LastLineAt(lines: seq<string>, k: string, v: string, i: int) {
    0 <= i < |lines| && ParseLine(lines[i]) == Some(Entry(k, v))
    && forall j :: i < j < |lines| ==> !KeyedLine(lines[j], k)
  }

  /** Parsing one more line changes at most the entry of that line's key. */
  lemma ParseLinesStep(lines: seq<string>, k: string)
    requires lines != []
    ensures var before := ParseLines(lines[..|lines| - 1]);
            var last := lines[|lines| - 1];
            Get(ParseLines(lines), k) ==
              (if KeyedLine(last, k) then Some(ParseLine(last).value.value) else Get(before, k))
  {
  }

  /** No line names the key exactly when the key is absent from the parse. */
  lemma {:induction false} AbsentWhenNoLine(lines: seq<string>, k: string)
    ensures Get(ParseLines(lines), k).None? <==> NoKeyedLine(lines, k)
    decreases |lines|
  {
    if lines != [] {
      AbsentWhenNoLine(lines[..|lines| - 1], k);
      AbsentStep(lines, k);
      NoKeyedLineStep(lines, k);
    }
  }

  /** The key is absent after the last line exactly when that line does not name it and
      the key was absent before. */
  lemma AbsentStep(lines: seq<string>, k: string)
    requires lines != []
    ensures Get(ParseLines(lines), k).None? <==>
            !KeyedLine(lines[|lines| - 1], k) && Get(ParseLines(lines[..|lines| - 1]), k).None?
  {
    ParseLinesStep(lines, k);
  }

  predicate NoKeyedLine(lines: seq<string>, k: string) {
    forall i :: 0 <= i < |lines| ==> !KeyedLine(lines[i], k)
  }

  lemma NoKeyedLineStep(lines: seq<string>, k: string)
    requires lines != []
    ensures NoKeyedLine(lines, k) <==>
            !KeyedLine(lines[|lines| - 1], k) && NoKeyedLine(lines[..|lines| - 1], k)
  {
    var init := lines[..|lines| - 1];
    assert forall i :: 0 <= i < |init| ==> init[i] == lines[i];
  }

  /** When the last line names the key, it alone decides the last value. */
  lemma LastLineKeyed(lines: seq<string>, k: string, v: string)
    requires lines != [] && KeyedLine(lines[|lines| - 1], k)
    ensures LastLineFor(lines, k, v) <==> ParseLine(lines[|lines| - 1]) == Some(Entry(k, v))
  {
    var n := |lines| - 1;
    assert LastLineAt(lines, k, v, n) <==> ParseLine(lines[n]) == Some(Entry(k, v));
    if LastLineFor(lines, k, v) {
      var i :| LastLineAt(lines, k, v, i);
      OnlyLastKeyedIsLast(lines, k, v, i);
    }
  }

  /** When the last line names the key, no earlier line is the last one naming it. */
  lemma OnlyLastKeyedIsLast(lines: seq<string>, k: string, v: string, i: int)
    requires LastLineAt(lines, k, v, i) && KeyedLine(lines[|lines| - 1], k)
    ensures i == |lines| - 1
  {
  }

  /** A last line that does not name the key leaves its last value as it was. */
  lemma LastLineUnkeyed(lines: seq<string>, k: string, v: string)
    requires lines != [] && !KeyedLine(lines[|lines| - 1], k)
    ensures LastLineFor(lines, k, v) <==> LastLineFor(lines[..|lines| - 1], k, v)
  {
    var init := lines[..|lines| - 1];
    if LastLineFor(lines, k, v) {
      var i :| LastLineAt(lines, k, v, i);
      LaterLinesOfPrefix(lines, init, i, k);
      assert LastLineAt(init, k, v, i);
    }
    if LastLineFor(init, k, v) {
      var i :| LastLineAt(init, k, v, i);
      LaterLinesOfPrefix(lines, init, i, k);
      assert LastLineAt(lines, k, v, i);
    }
  }

  lemma LaterLinesOfPrefix(lines: seq<string>, init: seq<string>, i: nat, k: string)
    requires lines != [] && init == lines[..|lines| - 1] && i < |init|
    requires !KeyedLine(lines[|lines| - 1], k)
    ensures init[i] == lines[i]
    ensures (forall j :: i < j < |lines| ==> !KeyedLine(lines[j], k)) <==>
            (forall j :: i < j < |init| ==> !KeyedLine(init[j], k))
  {
  }

  /** Last write wins: the parsed value of a key is the value on the last line that names
      it. */
  lemma {:induction false} LastWriteWins(lines: seq<string>, k: string, v: string)
    ensures Get(ParseLines(lines), k) == Some(v) <==> LastLineFor(lines, k, v)
    decreases |lines|
  {
    if lines != [] {
      var init := lines[..|lines| - 1];
      var last := lines[|lines| - 1];
      ParseLinesStep(lines, k);
      if KeyedLine(last, k) {
        LastLineKeyed(lines, k, v);
      } else {
        LastWriteWins(init, k, v);
        LastLineUnkeyed(lines, k, v);
      }
    }
  }

  /** Parsing never produces a key with '=' or a newline, nor a value with a newline. */
  lemma {:induction false} ParsedStoreShape(lines: seq<string>)
    requires forall i :: 0 <= i < |lines| ==> '\n' !in lines[i]
    ensures var st := ParseLines(lines);
            forall k :: k in st.values ==> '=' !in k && '\n' !in k && '\n' !in st.values[k]
    decreases |lines|
  {
    if lines != [] {
      var init := lines[..|lines| - 1];
      ParsedStoreShape(init);
      var last := lines[|lines| - 1];
      match ParseLine(last)
      case None =>
      case Some(e) =>
        assert last == e.key + "=" + e.value;
        forall j | 0 <= j < |e.key|
          ensures e.key[j] != '\n'
        {
          assert e.key[j] == last[j];
        }
        forall j | 0 <= j < |e.value|
          ensures e.value[j] != '\n'
        {
          assert e.value[j] == last[|e.key| + 1 + j];
        }
    }
  }

  /** A missing file, and a file holding only whitespace, both parse to the empty map. */
  lemma EmptyInputs(text: string)
    requires forall i :: 0 <= i < |text| ==> IsSpace(text[i])
    ensures Parse(None) == Empty
    ensures Parse(Some(text)) == Empty
  {
    var t := Trim(text);
    TrimKeepsInfix(text);
    var i :| 0 <= i <= |text| - |t| && t == text[i..][..|t|]
             && (forall j :: 0 <= j < i ==> IsSpace(text[j]))
             && (forall j :: i + |t| <= j < |text| ==> IsSpace(text[j]));
  }

  // ---------------------------------------------------------------- round trip

  /** A key that survives a write and a read: no '=' and no newline in it, and no leading
      whitespace for `trim` to take if it ends up on the first line. */
  predicate ValidKey(k: string) {
    '=' !in k && '\n' !in k && (k == [] || !IsSpace(k[0]))
  }

  /** A value that survives: no newline, and no trailing whitespace for `trim` to take if
      it ends up on the last line. */
  predicate ValidValue(v: string) {
    '\n' !in v && (v == [] || !IsSpace(v[|v| - 1]))
  }

  /** A store every entry of which survives a write and a read. */
  ghost predicate Clean(st: Store) {
    Valid(st) && forall k :: k in st.values ==> ValidKey(k) && ValidValue(st.values[k])
  }

  lemma LineHasNoNewline(k: string, v: string)
    requires ValidKey(k) && ValidValue(v)
    ensures '\n' !in Line(k, v)
  {
    var line := Line(k, v);
    forall j | 0 <= j < |line|
      ensures line[j] != '\n'
    {
      if j < |k| {
        assert line[j] == k[j];
      } else if j > |k| {
        assert line[j] == v[j - |k| - 1];
      }
    }
  }

  /** The first characters of a join are its first part, the last ones its last part. */
  lemma {:induction false} JoinEnds(parts: seq<string>)
    requires |parts| >= 1
    ensures |Join(parts, '\n')| >= |parts[0]|
    ensures Join(parts, '\n')[..|parts[0]|] == parts[0]
    ensures |Join(parts, '\n')| >= |parts[|parts| - 1]|
    ensures Join(parts, '\n')[|Join(parts, '\n')| - |parts[|parts| - 1]|..] == parts[|parts| - 1]
    decreases |parts|
  {
    if |parts| > 1 {
      JoinEnds(parts[1..]);
      var rest := Join(parts[1..], '\n');
      assert Join(parts, '\n') == parts[0] + ['\n'] + rest;
    }
  }

  /** The store holding the first `n` keys of `st`. */
  function Prefix(st: Store, n: nat): Store
    requires Valid(st) && n <= |st.order|
  {
    Store(st.order[..n], map k | k in st.order[..n] :: st.values[k])
  }

  /** One more key of the store is one more `set`, at the end. */
  lemma PrefixStep(st: Store, n: nat)
    requires Valid(st) && 0 < n <= |st.order|
    ensures Prefix(st, n) == Set(Prefix(st, n - 1), st.order[n - 1], st.values[st.order[n - 1]])
  {
    var k := st.order[n - 1];
    var before := Prefix(st, n - 1);
    assert st.order[..n] == st.order[..n - 1] + [k];
    assert k !in st.order[..n - 1];
    assert k !in before.values;
    var after := Set(before, k, st.values[k]);
    assert after.order == st.order[..n];
    assert after.values == Prefix(st, n).values;
  }

  /** The first `n - 1` lines of a store are the lines of its first `n - 1` keys. */
  lemma LinesPrefix(st: Store, n: nat)
    requires Valid(st) && 0 < n <= |st.order|
    ensures Lines(st)[..n][..n - 1] == Lines(st)[..n - 1]
    ensures Lines(st)[..n][n - 1] == Line(st.order[n - 1], st.values[st.order[n - 1]])
  {
  }

  /** Folding the first `n` lines of a clean store rebuilds its first `n` keys. */
  lemma {:induction false} ParseLinesOfLines(st: Store, n: nat)
    requires Clean(st) && n <= |st.order|
    ensures ParseLines(Lines(st)[..n]) == Prefix(st, n)
    decreases n
  {
    if n == 0 {
      assert Lines(st)[..0] == [];
      assert Prefix(st, 0).values == map[];
    } else {
      ParseLinesOfLines(st, n - 1);
      var k := st.order[n - 1];
      var v := st.values[k];
      LinesPrefix(st, n);
      ParseLineExactly(Line(k, v), k, v);
      PrefixStep(st, n);
    }
  }

  /** The first character of a line is that of its key, or the '=' when the key is empty;
      its last character is that of its value, or the '=' when the value is empty. */
  lemma LineEnds(k: string, v: string)
    requires ValidKey(k) && ValidValue(v)
    ensures var line := Line(k, v);
            line != [] && !IsSpace(line[0]) && !IsSpace(line[|line| - 1])
  {
    var line := Line(k, v);
    assert line[0] == (if k == [] then '=' else k[0]);
    assert line[|line| - 1] == (if v == [] then '=' else v[|v| - 1]);
  }

  /** The rendered body of a non-empty clean store starts and ends with a non-space, so
      `trim` only takes away the trailing newline. */
  lemma TrimSerialized(st: Store)
    requires Clean(st) && st.order != []
    ensures Trim(Serialize(st)) == Join(Lines(st), '\n')
  {
    var lines := Lines(st);
    var body := Join(lines, '\n');
    JoinEnds(lines);
    var first := lines[0];
    var last := lines[|lines| - 1];
    LineEnds(st.order[0], st.values[st.order[0]]);
    LineEnds(st.order[|st.order| - 1], st.values[st.order[|st.order| - 1]]);
    assert body[0] == body[..|first|][0] == first[0];
    assert body[|body| - 1] == body[|body| - |last|..][|last| - 1] == last[|last| - 1];
    TrimNewlineTerminated(body);
  }

  /** The empty store is written as a lone newline, which reads back empty. */
  lemma EmptyRoundTrip(st: Store)
    requires Valid(st) && st.order == []
    ensures Parse(Some(Serialize(st))) == st
  {
    assert Lines(st) == [];
    assert Serialize(st) == "\n";
    assert TrimStart("\n") == TrimStart("") == "";
    assert st.values == map[];
  }

  /** The lines of a clean store hold no newline. */
  lemma LinesHaveNoNewline(st: Store)
    requires Clean(st)
    ensures forall i :: 0 <= i < |Lines(st)| ==> '\n' !in Lines(st)[i]
  {
    forall i | 0 <= i < |Lines(st)|
      ensures '\n' !in Lines(st)[i]
    {
      LineHasNoNewline(st.order[i], st.values[st.order[i]]);
    }
  }

  /** Parsing a text whose trim is a non-empty body parses the body's lines. */
  lemma ParseOfTrimmed(text: string, body: string)
    requires Trim(text) == body && body != ""
    ensures Parse(Some(text)) == ParseLines(Split(body, '\n'))
  {
  }

  /** All of a store's keys make up the store. */
  lemma PrefixAll(st: Store)
    requires Valid(st)
    ensures Prefix(st, |st.order|) == st
  {
    assert st.order[..|st.order|] == st.order;
  }

  /** Round trip: reading back what writeKV wrote gives the same map, entries and order,
      provided every key and value survives (see ValidKey and ValidValue). */
  lemma {:induction false} ParseSerialize(st: Store)
    requires Clean(st)
    ensures Parse(Some(Serialize(st))) == st
  {
    if st.order == [] {
      EmptyRoundTrip(st);
    } else {
      var lines := Lines(st);
      var body := Join(lines, '\n');
      TrimSerialized(st);
      JoinEnds(lines);
      LineEnds(st.order[0], st.values[st.order[0]]);
      ParseOfTrimmed(Serialize(st), body);
      LinesHaveNoNewline(st);
      SplitJoin(lines, '\n');
      ParseLinesOfLines(st, |st.order|);
      assert lines[..|st.order|] == lines;
      PrefixAll(st);
    }
  }

  // ---------------------------------------------------------------- the two files

  /** The filesystem: path -> contents. */
  type Fs = map<string, string>

  /** The two files under the user's configuration directory (home directory abstracted). */
  const ProjectsFile: string := "~/.config/termplex/projects"
  const ConfigFile: string := "~/.config/termplex/config"

  /** ensureConfig: creates the registry empty and the machine configuration with
      `editor=claude` when they are missing; existing files are left alone. */
  function EnsureConfig(fs: Fs): (r: Fs)
    ensures ProjectsFile in r && ConfigFile in r
    ensures forall p :: p in fs ==> p in r && r[p] == fs[p]
    ensures forall p :: p in r ==> p in fs || p == ProjectsFile || p == ConfigFile
    ensures ConfigFile !in fs ==> r[ConfigFile] == "editor=claude\n"
    ensures ProjectsFile !in fs ==> r[ProjectsFile] == ""
  {
    var withProjects := if ProjectsFile in fs then fs else fs[ProjectsFile := ""];
    if ConfigFile in withProjects then withProjects else withProjects[ConfigFile := "editor=claude\n"]
  }

  /** Seeding twice is seeding once. */
  lemma EnsureConfigIdempotent(fs: Fs)
    ensures EnsureConfig(EnsureConfig(fs)) == EnsureConfig(fs)
  {
  }

  function Contents(fs: Fs, path: string): Option<string> {
    if path in fs then Some(fs[path]) else None
  }

  /** readKVFile: parse the file at `path`, the empty map when it is missing. */
  function ReadKVFile(fs: Fs, path: string): Store {
    Parse(Contents(fs, path))
  }

  /** readKVFile reads back what writeKV's format holds at `path`, when the map survives
      the round trip, and depends on no other file; a missing file reads as the empty map. */
  lemma ReadKVFileLaws(fs: Fs, path: string, st: Store)
    requires Clean(st)
    ensures path !in fs ==> ReadKVFile(fs, path) == Empty
    ensures ReadKVFile(fs[path := Serialize(st)], path) == st
    ensures forall g :: g != path ==> ReadKVFile(fs[path := Serialize(st)], g) == ReadKVFile(fs, g)
  {
    ParseSerialize(st);
  }

  /** readKV: seed the configuration files, then parse. Every read goes through this,
      so a read on a fresh machine also creates the two files (see EnsureConfig). */
  function ReadKV(fs: Fs, file: string): Store {
    ReadKVFile(EnsureConfig(fs), file)
  }

  /** writeKV. */
  function WriteKV(fs: Fs, file: string, s: Store): Fs
    requires Valid(s)
  {
    fs[file := Serialize(s)]
  }

  function AddProject(fs: Fs, name: string, path: string): Fs {
    WriteKV(EnsureConfig(fs), ProjectsFile, Set(ReadKV(fs, ProjectsFile), name, path))
  }

  function RemoveProject(fs: Fs, name: string): Fs {
    WriteKV(EnsureConfig(fs), ProjectsFile, Delete(ReadKV(fs, ProjectsFile), name))
  }

  function GetProject(fs: Fs, name: string): Option<string> {
    Get(ReadKV(fs, ProjectsFile), name)
  }

  function ListProjects(fs: Fs): Store {
    ReadKV(fs, ProjectsFile)
  }

  function SetConfig(fs: Fs, key: string, value: string): Fs {
    WriteKV(EnsureConfig(fs), ConfigFile, Set(ReadKV(fs, ConfigFile), key, value))
  }

  function GetConfig(fs: Fs, key: string): Option<string> {
    Get(ReadKV(fs, ConfigFile), key)
  }

  function ListConfig(fs: Fs): Store {
    ReadKV(fs, ConfigFile)
  }

  /** The files are kept in a shape that every write reads back intact. */
  ghost predicate CleanFiles(fs: Fs) {
    Clean(ReadKV(fs, ProjectsFile)) && Clean(ReadKV(fs, ConfigFile))
  }

  /** The store of the seeded machine configuration: `editor=claude` alone. */
  const SeededConfig: Store := Store(["editor"], map["editor" := "claude"])

  lemma SeededConfigRead(fs: Fs)
    requires ConfigFile !in fs
    ensures ReadKV(fs, ConfigFile) == SeededConfig
    ensures Clean(ReadKV(fs, ConfigFile))
  {
    assert Clean(SeededConfig) by {
      assert ValidKey("editor") && ValidValue("claude");
    }
    assert EnsureConfig(fs)[ConfigFile] == Serialize(SeededConfig);
    ParseSerialize(SeededConfig);
  }

  lemma SeededProjectsRead(fs: Fs)
    requires ProjectsFile !in fs
    ensures ReadKV(fs, ProjectsFile) == Empty
    ensures Clean(ReadKV(fs, ProjectsFile))
  {
    EmptyInputs("");
  }

  /** A fresh machine: the configuration holds `editor=claude` and nothing else, and no
      project is registered. */
  lemma FreshMachine(fs: Fs, k: string, name: string)
    requires ConfigFile !in fs && ProjectsFile !in fs
    ensures GetConfig(fs, "editor") == Some("claude")
    ensures k != "editor" ==> GetConfig(fs, k) == None
    ensures GetProject(fs, name) == None
  {
    SeededGet(fs, "editor");
    SeededGet(fs, k);
    SeededProjectsGet(fs, name);
  }

  lemma SeededGet(fs: Fs, k: string)
    requires ConfigFile !in fs
    ensures GetConfig(fs, k) == Get(SeededConfig, k)
  {
    SeededConfigRead(fs);
  }

  lemma SeededProjectsGet(fs: Fs, name: string)
    requires ProjectsFile !in fs
    ensures GetProject(fs, name) == None
  {
    SeededProjectsRead(fs);
  }

  /** What a fresh machine reads back survives every write. */
  lemma FreshFilesClean(fs: Fs)
    requires ConfigFile !in fs && ProjectsFile !in fs
    ensures CleanFiles(fs)
  {
    SeededConfigRead(fs);
    SeededProjectsRead(fs);
  }

  /** Writing a clean store to one of the two files after seeding reads it back, and
      the other file reads as before. */
  lemma WriteThenRead(fs: Fs, file: string, st: Store)
    requires file == ProjectsFile || file == ConfigFile
    requires Clean(st)
    ensures ReadKV(WriteKV(EnsureConfig(fs), file, st), file) == st
    ensures forall g :: g != file ==> ReadKV(WriteKV(EnsureConfig(fs), file, st), g) == ReadKV(fs, g)
  {
    var fs' := WriteKV(EnsureConfig(fs), file, st);
    assert EnsureConfig(fs') == fs';
    ParseSerialize(st);
  }

  /** `set` keeps a store clean when the key and value are clean. */
  lemma SetKeepsClean(st: Store, k: string, v: string)
    requires Clean(st) && ValidKey(k) && ValidValue(v)
    ensures Clean(Set(st, k, v))
  {
  }

  /** `delete` keeps a store clean. */
  lemma DeleteKeepsClean(st: Store, k: string)
    requires Clean(st)
    ensures Clean(Delete(st, k))
  {
  }

  /** setConfig then getConfig: the key reads back the value just set, every other key
      reads as before, and the files stay clean. A later set overwrites an earlier one. */
  lemma SetThenGetConfig(fs: Fs, k: string, v: string, other: string)
    requires CleanFiles(fs) && ValidKey(k) && ValidValue(v)
    ensures GetConfig(SetConfig(fs, k, v), k) == Some(v)
    ensures other != k ==> GetConfig(SetConfig(fs, k, v), other) == GetConfig(fs, other)
    ensures CleanFiles(SetConfig(fs, k, v))
    ensures ListProjects(SetConfig(fs, k, v)) == ListProjects(fs)
  {
    var s' := Set(ReadKV(fs, ConfigFile), k, v);
    SetKeepsClean(ReadKV(fs, ConfigFile), k, v);
    WriteThenRead(fs, ConfigFile, s');
    MapLaws(ReadKV(fs, ConfigFile), k, v, other);
  }

  /** addProject then getProject reads the path back (overwriting a previous path for the
      same name); other projects and the machine configuration are untouched. */
  lemma AddThenGetProject(fs: Fs, name: string, path: string, other: string)
    requires CleanFiles(fs) && ValidKey(name) && ValidValue(path)
    ensures GetProject(AddProject(fs, name, path), name) == Some(path)
    ensures other != name ==> GetProject(AddProject(fs, name, path), other) == GetProject(fs, other)
    ensures CleanFiles(AddProject(fs, name, path))
    ensures ListConfig(AddProject(fs, name, path)) == ListConfig(fs)
  {
    var s' := Set(ReadKV(fs, ProjectsFile), name, path);
    SetKeepsClean(ReadKV(fs, ProjectsFile), name, path);
    WriteThenRead(fs, ProjectsFile, s');
    MapLaws(ReadKV(fs, ProjectsFile), name, path, other);
  }

  /** removeProject makes the name unknown and leaves every other project as it was. */
  lemma RemoveThenGetProject(fs: Fs, name: string, other: string)
    requires CleanFiles(fs)
    ensures GetProject(RemoveProject(fs, name), name) == None
    ensures other != name ==> GetProject(RemoveProject(fs, name), other) == GetProject(fs, other)
    ensures CleanFiles(RemoveProject(fs, name))
    ensures ListConfig(RemoveProject(fs, name)) == ListConfig(fs)
  {
    var s' := Delete(ReadKV(fs, ProjectsFile), name);
    DeleteKeepsClean(ReadKV(fs, ProjectsFile), name);
    WriteThenRead(fs, ProjectsFile, s');
    MapLaws(ReadKV(fs, ProjectsFile), name, "", other);
  }
}

=== FILE: dependencies.dfy ===
/**
 The dependency checks the launcher runs before it touches tmux: ensureTmux for
 tmux itself and ensureCommand for the editor, the sidebar and a custom server
 binary. Both follow one flow: probe the command; when it is missing, find an
 install command, ask for consent, run the install and probe again. Every failure
 exits with status 1.
 */
module Dependencies {
  import opened Optional
  import opened Text
  import opened Environment

  /** How a check ends: the launcher goes on with the (possibly changed) machine, the
      process exits with the given status, or a prompt is left without an answer because
      the input ended, so that the launcher never goes past it. */
  datatype Outcome = Proceed(machine: Machine) | Exit(code: int) | NoAnswer

  /** An outcome with the effects that led to it. */
  datatype Run = Run(outcome: Outcome, trace: seq<Effect>)

  /** An install command found (or not), with the commands probed to find it. */
  datatype Lookup = Lookup(installCommand: Option<string>, probes: seq<string>)

  /** The package managers tried on Linux, in order, with the command that installs tmux. */
  const LinuxManagers: seq<(string, string)> := [
    ("apt-get", "sudo apt-get install -y tmux"),
    ("dnf", "sudo dnf install -y tmux"),
    ("yum", "sudo yum install -y tmux"),
    ("pacman", "sudo pacman -S --noconfirm tmux")]

  /** The first manager of `managers` on the PATH, probing each in turn. */
  function FirstManager(m: Machine, managers: seq<(string, string)>): (r: Lookup)
    ensures |r.probes| <= |managers|
    ensures forall i :: 0 <= i < |r.probes| ==> r.probes[i] == managers[i].0
    ensures r.installCommand.None? ==> |r.probes| == |managers|
                                       && forall i :: 0 <= i < |managers| ==> !Installed(m, managers[i].0)
    ensures r.installCommand.Some? ==> 1 <= |r.probes|
                                       && Installed(m, managers[|r.probes| - 1].0)
                                       && r.installCommand.value == managers[|r.probes| - 1].1
                                       && forall i :: 0 <= i < |r.probes| - 1 ==> !Installed(m, managers[i].0)
  {
    if managers == [] then Lookup(None, [])
    else if Installed(m, managers[0].0) then Lookup(Some(managers[0].1), [managers[0].0])
    else
      var rest := FirstManager(m, managers[1..]);
      Lookup(rest.installCommand, [managers[0].0] + rest.probes)
  }

  /** getInstallCommand: how tmux would be installed on this machine. */
  function TmuxInstaller(m: Machine): Lookup {
    match m.platform
    case Darwin =>
      if Installed(m, "brew") then Lookup(Some("brew install tmux"), ["brew"])
      else Lookup(None, ["brew"])
    case Linux => FirstManager(m, LinuxManagers)
    case OtherPlatform => Lookup(None, [])
  }

  /** The tmux installer on Linux is the first of apt-get, dnf, yum and pacman found, and
      the ones before it were probed and missing. On macOS it is Homebrew or nothing. */
  lemma TmuxInstallerChoice(m: Machine)
    ensures m.platform == Darwin ==>
            TmuxInstaller(m).probes == ["brew"]
            && (TmuxInstaller(m).installCommand.Some? <==> Installed(m, "brew"))
            && (Installed(m, "brew") ==> TmuxInstaller(m).installCommand == Some("brew install tmux"))
    ensures m.platform == OtherPlatform ==> TmuxInstaller(m) == Lookup(None, [])
    ensures m.platform == Linux && Installed(m, "apt-get") ==>
            TmuxInstaller(m) == Lookup(Some("sudo apt-get install -y tmux"), ["apt-get"])
    ensures m.platform == Linux && !Installed(m, "apt-get") && Installed(m, "dnf") ==>
            TmuxInstaller(m) == Lookup(Some("sudo dnf install -y tmux"), ["apt-get", "dnf"])
    ensures m.platform == Linux && !Installed(m, "apt-get") && !Installed(m, "dnf") && Installed(m, "yum") ==>
            TmuxInstaller(m) == Lookup(Some("sudo yum install -y tmux"), ["apt-get", "dnf", "yum"])
    ensures m.platform == Linux && !Installed(m, "apt-get") && !Installed(m, "dnf")
            && !Installed(m, "yum") && Installed(m, "pacman") ==>
            TmuxInstaller(m) == Lookup(Some("sudo pacman -S --noconfirm tmux"), ["apt-get", "dnf", "yum", "pacman"])
    ensures m.platform == Linux && !Installed(m, "apt-get") && !Installed(m, "dnf")
            && !Installed(m, "yum") && !Installed(m, "pacman") ==>
            TmuxInstaller(m) == Lookup(None, ["apt-get", "dnf", "yum", "pacman"])
  {
    if m.platform == Linux {
      LinuxTmuxInstaller(m);
    }
  }

  /** The Linux half of TmuxInstallerChoice, one manager at a time. */
  lemma LinuxTmuxInstaller(m: Machine)
    requires m.platform == Linux
    ensures Installed(m, "apt-get") ==>
            TmuxInstaller(m) == Lookup(Some("sudo apt-get install -y tmux"), ["apt-get"])
    ensures !Installed(m, "apt-get") && Installed(m, "dnf") ==>
            TmuxInstaller(m) == Lookup(Some("sudo dnf install -y tmux"), ["apt-get", "dnf"])
    ensures !Installed(m, "apt-get") && !Installed(m, "dnf") && Installed(m, "yum") ==>
            TmuxInstaller(m) == Lookup(Some("sudo yum install -y tmux"), ["apt-get", "dnf", "yum"])
    ensures !Installed(m, "apt-get") && !Installed(m, "dnf") && !Installed(m, "yum") && Installed(m, "pacman") ==>
            TmuxInstaller(m) == Lookup(Some("sudo pacman -S --noconfirm tmux"), ["apt-get", "dnf", "yum", "pacman"])
    ensures !Installed(m, "apt-get") && !Installed(m, "dnf") && !Installed(m, "yum") && !Installed(m, "pacman") ==>
            TmuxInstaller(m) == Lookup(None, ["apt-get", "dnf", "yum", "pacman"])
  {
    var ms := LinuxManagers;
    assert ms[0].0 == "apt-get" && ms[1..][0].0 == "dnf";
    assert ms[1..][1..][0].0 == "yum" && ms[1..][1..][1..][0].0 == "pacman";
    assert ms[1..][1..][1..][1..] == [];
    var r4 := FirstManager(m, ms[1..][1..][1..][1..]);
    assert r4 == Lookup(None, []);
    var r3 := FirstManager(m, ms[1..][1..][1..]);
    assert r3 == if Installed(m, "pacman") then Lookup(Some("sudo pacman -S --noconfirm tmux"), ["pacman"])
                 else Lookup(None, ["pacman"]);
    var r2 := FirstManager(m, ms[1..][1..]);
    assert r2 == if Installed(m, "yum") then Lookup(Some("sudo yum install -y tmux"), ["yum"])
                 else Lookup(r3.installCommand, ["yum"] + r3.probes);
    var r1 := FirstManager(m, ms[1..]);
    assert r1 == if Installed(m, "dnf") then Lookup(Some("sudo dnf install -y tmux"), ["dnf"])
                 else Lookup(r2.installCommand, ["dnf"] + r2.probes);
    assert TmuxInstaller(m) == if Installed(m, "apt-get") then Lookup(Some("sudo apt-get install -y tmux"), ["apt-get"])
                               else Lookup(r1.installCommand, ["apt-get"] + r1.probes);
  }

  /** The install commands known for the editor and sidebar defaults: claude is always
      installable with npm, lazygit with Homebrew on macOS and Linux when brew is found,
      and no other command has one. */
  function KnownInstaller(m: Machine, cmd: string): (r: Lookup)
    ensures cmd != "claude" && cmd != "lazygit" ==> r == Lookup(None, [])
    ensures cmd == "claude" ==> r == Lookup(Some("npm install -g @anthropic-ai/claude-code"), [])
    ensures cmd == "lazygit" && m.platform != OtherPlatform ==>
            r.probes == ["brew"] && (r.installCommand.Some? <==> Installed(m, "brew"))
            && (r.installCommand.Some? ==> r.installCommand.value == "brew install lazygit")
    ensures cmd == "lazygit" && m.platform == OtherPlatform ==> r == Lookup(None, [])
  {
    if cmd == "claude" then Lookup(Some("npm install -g @anthropic-ai/claude-code"), [])
    else if cmd == "lazygit" then
      match m.platform
      case Darwin =>
        if Installed(m, "brew") then Lookup(Some("brew install lazygit"), ["brew"])
        else Lookup(None, ["brew"])
      case Linux =>
        if Installed(m, "brew") then Lookup(Some("brew install lazygit"), ["brew"])
        else Lookup(None, ["brew"])
      case OtherPlatform => Lookup(None, [])
    else Lookup(None, [])
  }

  /** The answer to `[Y/n]` consents when, trimmed and lower-cased, it is empty, "y" or
      "yes". */
  predicate Consents(raw: string) {
    var answer := ToLower(Trim(raw));
    answer == "" || answer == "y" || answer == "yes"
  }

  /** The answers that consent, read off the raw text: once trimmed, nothing at all,
      "y" in either case, or "yes" in any mix of cases. */
  predicate YesWord(t: string) {
    || t == []
    || (|t| == 1 && t[0] in "yY")
    || (|t| == 3 && t[0] in "yY" && t[1] in "eE" && t[2] in "sS")
  }

  /** Consent, which lower-cases the trimmed answer, accepts exactly the yes-words. */
  lemma ConsentsExactly(raw: string)
    ensures Consents(raw) <==> YesWord(Trim(raw))
  {
    LowerYesWord(Trim(raw));
  }

  /** Lower-casing gives "", "y" or "yes" exactly on the yes-words. */
  lemma LowerYesWord(t: string)
    ensures (ToLower(t) == "" || ToLower(t) == "y" || ToLower(t) == "yes") <==> YesWord(t)
  {
    var a := ToLower(t);
    if |t| == 1 {
      assert a == "y" <==> a[0] == 'y';
      LowerIs(t[0], 'y', 'Y');
    }
    if |t| == 3 {
      assert a == "yes" <==> a[0] == 'y' && a[1] == 'e' && a[2] == 's';
      LowerIs(t[0], 'y', 'Y');
      LowerIs(t[1], 'e', 'E');
      LowerIs(t[2], 's', 'S');
    }
  }

  /** A character lower-cases to a letter exactly when it is that letter in either case. */
  lemma LowerIs(c: char, lower: char, upper: char)
    requires 'a' <= lower <= 'z' && upper as int == lower as int - 32
    ensures LowerChar(c) == lower <==> c in [lower, upper]
  {
  }

  /** Consent depends only on the answer once trimmed and lower-cased. */
  lemma ConsentOfNormal(raw: string, answer: string)
    requires ToLower(Trim(raw)) == answer
    ensures Consents(raw) <==> answer in {"", "y", "yes"}
  {
  }

  /** An empty answer (the user pressing Enter) consents. */
  lemma EnterConsents()
    ensures Consents("")
  {
    TrimOfTrimmed("");
    ConsentOfNormal("", "");
  }

  /** "Y" consents. */
  lemma CapitalYConsents()
    ensures Consents("Y")
  {
    TrimOfTrimmed("Y");
    LowerExamples();
    ConsentOfNormal("Y", "y");
  }

  /** " yes " consents: surrounding blanks are trimmed. */
  lemma PaddedYesConsents()
    ensures Consents(" yes ")
  {
    SpacedYes();
    LowerExamples();
    ConsentOfNormal(" yes ", "yes");
  }

  /** "YES" followed by a newline, as a terminal line reads, consents. */
  lemma ShoutedYesConsents()
    ensures Consents("YES\n")
  {
    TrimNewlineTerminated("YES");
    LowerExamples();
    ConsentOfNormal("YES\n", "yes");
  }

  lemma SpacedYes()
    ensures Trim(" yes ") == "yes"
  {
    assert " yes " == " " + "yes ";
    TrimStartOfPadded(" ", "yes ");
    assert "yes " == "yes" + " ";
    TrimEndOfPadded("yes", " ");
  }

  lemma LowerExamples()
    ensures ToLower("Y") == "y" && ToLower("YES") == "yes" && ToLower("yes") == "yes"
  {
  }

  /** "n" and "yes please" refuse. */
  lemma RefusingAnswers()
    ensures !Consents("n") && !Consents("yes please")
  {
    assert !Consents("n") by { Refuses("n"); }
    assert !Consents("yes please") by { Refuses("yes please"); }
  }

  /** A lower-case answer without surrounding whitespace refuses unless it is "y" or "yes". */
  lemma Refuses(answer: string)
    requires answer != [] && !IsSpace(answer[0]) && !IsSpace(answer[|answer| - 1])
    requires forall i :: 0 <= i < |answer| ==> !('A' <= answer[i] <= 'Z')
    requires answer != "y" && answer != "yes"
    ensures !Consents(answer)
  {
    TrimOfTrimmed(answer);
    LowerFixed(answer);
    ConsentOfNormal(answer, answer);
  }

  /** Text without capital letters is its own lower case. */
  lemma LowerFixed(s: string)
    requires forall i :: 0 <= i < |s| ==> !('A' <= s[i] <= 'Z')
    ensures ToLower(s) == s
  {
  }

  /** One dependency check for `cmd`, given how its installer is looked up. */
  function Ensure(m: Machine, cmd: string, lookup: Machine -> Lookup): (r: Run)
    ensures |r.trace| >= 1 && r.trace[0] == Probe(cmd)
    ensures r.outcome.Exit? ==> r.outcome.code == 1
    ensures Installed(m, cmd) ==> r == Run(Proceed(m), [Probe(cmd)])
    ensures r.outcome.Proceed? ==> Installed(r.outcome.machine, cmd)
                                   && m.onPath <= r.outcome.machine.onPath
    ensures lookup(m).installCommand.None? ==> forall e :: e in r.trace ==> !e.Ask? && !e.Install?
    ensures r.outcome.NoAnswer? <==> !Installed(m, cmd) && lookup(m).installCommand.Some? && m.replies == []
    ensures r.outcome.NoAnswer? ==> r.trace[|r.trace| - 1] == Ask(lookup(m).installCommand.value)
  {
    if Installed(m, cmd) then Run(Proceed(m), [Probe(cmd)])
    else
      var found := lookup(m);
      var probes := seq(|found.probes|, i requires 0 <= i < |found.probes| => Probe(found.probes[i]));
      match found.installCommand
      case None => Run(Exit(1), [Probe(cmd)] + probes)
      case Some(install) =>
        var asked := [Probe(cmd)] + probes + [Ask(install)];
        match NextReply(m)
        case None => Run(NoAnswer, asked)
        case Some((answer, m1)) =>
          if !Consents(answer) then Run(Exit(1), asked)
          else
            match RunInstall(m1, install)
            case None => Run(Exit(1), asked + [Install(install)])
            case Some(m2) =>
              var trace := asked + [Install(install), Probe(cmd)];
              if Installed(m2, cmd) then Run(Proceed(m2), trace) else Run(Exit(1), trace)
  }

  /** ensureTmux. */
  function EnsureTmux(m: Machine): Run {
    Ensure(m, "tmux", TmuxInstaller)
  }

  /** ensureCommand. */
  function EnsureCommand(m: Machine, cmd: string): Run {
    Ensure(m, cmd, (m': Machine) => KnownInstaller(m', cmd))
  }

  /** An install runs only after the prompt offering it has been answered with consent,
      the command is installed afterwards exactly when the check goes on, and a prompt
      whose input has ended leaves the check waiting with nothing installed. */
  lemma InstallNeedsConsent(m: Machine, cmd: string, lookup: Machine -> Lookup)
    requires !Installed(m, cmd)
    ensures var r := Ensure(m, cmd, lookup);
            (exists e :: e in r.trace && e.Install?) ==>
              && lookup(m).installCommand.Some?
              && Ask(lookup(m).installCommand.value) in r.trace
              && m.replies != [] && Consents(m.replies[0])
    ensures var r := Ensure(m, cmd, lookup);
            lookup(m).installCommand.Some? && m.replies != [] && !Consents(m.replies[0]) ==>
              r.outcome == Exit(1) && Install(lookup(m).installCommand.value) !in r.trace
    ensures var r := Ensure(m, cmd, lookup);
            lookup(m).installCommand.Some? && m.replies == [] ==>
              r.outcome == NoAnswer && Install(lookup(m).installCommand.value) !in r.trace
    ensures var r := Ensure(m, cmd, lookup);
            r.outcome.Proceed? <==>
              && lookup(m).installCommand.Some?
              && m.replies != [] && Consents(m.replies[0])
              && RunInstall(m.(replies := m.replies[1..]), lookup(m).installCommand.value).Some?
              && cmd in RunInstall(m.(replies := m.replies[1..]), lookup(m).installCommand.value).value.onPath
  {
    var found := lookup(m);
    var r := Ensure(m, cmd, lookup);
    var probes := seq(|found.probes|, i requires 0 <= i < |found.probes| => Probe(found.probes[i]));
    assert forall i :: 0 <= i < |probes| ==> !probes[i].Install?;
    match found.installCommand
    case None =>
    case Some(install) =>
      var asked := [Probe(cmd)] + probes + [Ask(install)];
      assert forall e :: e in asked ==> !e.Install?;
      if m.replies == [] {
        assert r == Run(NoAnswer, asked);
      } else if !Consents(m.replies[0]) {
        assert r == Run(Exit(1), asked);
      } else {
        assert Ask(install) in asked;
        match RunInstall(m.(replies := m.replies[1..]), install)
        case None =>
          assert r == Run(Exit(1), asked + [Install(install)]);
        case Some(m2) =>
          assert r.trace == asked + [Install(install), Probe(cmd)];
      }
  }

  /** The checks for several commands, one after another; the first exit, or the first
      prompt left without an answer, ends the run. */
  function EnsureAll(m: Machine, cmds: seq<string>): (r: Run)
    ensures r.outcome.Exit? ==> r.outcome.code == 1
    ensures r.outcome.NoAnswer? ==> r.trace != [] && r.trace[|r.trace| - 1].Ask?
    ensures r.outcome.Proceed? ==> forall c :: c in cmds ==> Installed(r.outcome.machine, c)
    ensures r.outcome.Proceed? ==> m.onPath <= r.outcome.machine.onPath
    ensures (forall c :: c in cmds ==> Installed(m, c)) ==>
            r == Run(Proceed(m), seq(|cmds|, i requires 0 <= i < |cmds| => Probe(cmds[i])))
    decreases |cmds|
  {
    if cmds == [] then Run(Proceed(m), [])
    else
      var first := EnsureCommand(m, cmds[0]);
      match first.outcome
      case Proceed(m1) =>
        var rest := EnsureAll(m1, cmds[1..]);
        Run(rest.outcome, first.trace + rest.trace)
      case _ => first
  }
}

=== FILE: environment.dfy ===
/**
 The outside world as the launcher sees it, reduced to what decides its path:
 the platform, the commands `command -v` finds, the user's answers to prompts,
 what each install command would put on the PATH, the directories that exist,
 the tmux sessions already running and the tmux commands that fail.
 Every interaction is recorded as an effect, in order.
 */
module Environment {
  import opened Optional
  import opened Session

  datatype Platform = Darwin | Linux | OtherPlatform

  datatype Machine = Machine(
    platform: Platform,
    onPath: set<string>,                 // commands `command -v` finds
    replies: seq<string>,                // raw answers typed at the prompts, in order
    installs: map<string, set<string>>,  // install command -> commands it adds; absent: it fails
    directories: set<string>,            // paths `existsSync` finds
    sessions: set<string>,               // running tmux sessions
    brokenOps: set<TmuxOp>,              // tmux commands that exit non-zero
    attachWorks: bool)                   // whether `tmux attach-session` exits zero

  datatype Effect =
    | Probe(command: string)       // command -v <command>
    | Ask(installCommand: string)  // the [Y/n] prompt offering <installCommand>
    | Install(installCommand: string)
    | HasSession(name: string)
    | Tmux(op: TmuxOp)
    | Attach(name: string)

  /** Whether `command -v cmd` succeeds. */
  predicate Installed(m: Machine, cmd: string) {
    cmd in m.onPath
  }

  /** The next answer typed at a prompt, and the machine with it consumed; None when the
      input has ended, in which case readline never calls the prompt back. */
  function NextReply(m: Machine): (r: Option<(string, Machine)>)
    ensures r.None? <==> m.replies == []
    ensures r.Some? ==> [r.value.0] + r.value.1.replies == m.replies
    ensures r.Some? ==> r.value.1.(replies := m.replies) == m
  {
    if m.replies == [] then None else Some((m.replies[0], m.(replies := m.replies[1..])))
  }

  /** Runs an install command: None when it exits non-zero, else the machine with the
      commands it installs now on the PATH. */
  function RunInstall(m: Machine, installCommand: string): (r: Option<Machine>)
    ensures r.None? <==> installCommand !in m.installs
    ensures r.Some? ==> m.onPath <= r.value.onPath && r.value.(onPath := m.onPath) == m
    ensures r.Some? ==> m.installs[installCommand] <= r.value.onPath
    ensures r.Some? ==> r.value.onPath <= m.onPath + m.installs[installCommand]
  {
    if installCommand in m.installs then Some(m.(onPath := m.onPath + m.installs[installCommand]))
    else None
  }
}

=== FILE: launcher.dfy ===
/**
 launch: check the directory, make sure tmux and the configured commands are
 installed, then join the directory's tmux session or build it and attach.

 The configuration comes from the filesystem map of the Config module; the
 machine, the prompts and tmux from the Environment module. Two versions of the
 session step are modelled: `LaunchAsWritten`, in which a failing
 `attach-session` on an existing session falls through to building the session
 again, and `Launch`, in which only a missing session leads to a build.
 */
module Launcher {
  import opened Optional
  import opened Text
  import opened Layout
  import opened Config
  import opened Session
  import opened Environment
  import opened Dependencies

  // ---------------------------------------------------------------- session name

  /** The path without its trailing slashes. */
  function StripTrailingSlashes(p: string): (r: string)
    ensures |r| <= |p| && r == p[..|r|]
    ensures r == [] || r[|r| - 1] != '/'
    ensures forall i :: |r| <= i < |p| ==> p[i] == '/'
  {
    if p != [] && p[|p| - 1] == '/' then StripTrailingSlashes(p[..|p| - 1]) else p
  }

  /** The text after the last '/'. */
  function LastSegment(p: string): (r: string)
    ensures '/' !in r
    ensures |r| <= |p| && r == p[|p| - |r|..]
    ensures |r| == |p| || p[|p| - |r| - 1] == '/'
  {
    if p == [] then []
    else if p[|p| - 1] == '/' then []
    else
      var rest := LastSegment(p[..|p| - 1]);
      LastSegmentStep(p, rest);
      rest + [p[|p| - 1]]
  }

  /** The last segment grows by the path's last character when that is not a '/'. */
  lemma LastSegmentStep(p: string, rest: string)
    requires p != [] && p[|p| - 1] != '/'
    requires var q := p[..|p| - 1];
             && '/' !in rest && |rest| <= |q| && rest == q[|q| - |rest|..]
             && (|rest| == |q| || q[|q| - |rest| - 1] == '/')
    ensures var r := rest + [p[|p| - 1]];
            && '/' !in r && |r| <= |p| && r == p[|p| - |r|..]
            && (|r| == |p| || p[|p| - |r| - 1] == '/')
  {
    var q := p[..|p| - 1];
    var r := rest + [p[|p| - 1]];
    forall i | 0 <= i < |r|
      ensures r[i] == p[|p| - |r| + i]
    {
      if i < |rest| {
        assert r[i] == q[|q| - |rest| + i];
      }
    }
    assert r == p[|p| - |r|..];
    assert |rest| < |q| ==> p[|p| - |rest| - 2] == q[|q| - |rest| - 1];
  }

  /** `path.basename(dir)` on POSIX: the last segment once trailing slashes are gone. */
  function Basename(p: string): (r: string)
    ensures '/' !in r
  {
    LastSegment(StripTrailingSlashes(p))
  }

  /** A trailing slash does not change the basename, and the basename of
      `parent/name` is `name`. */
  lemma BasenameLaws(parent: string, name: string)
    requires name != [] && '/' !in name
    ensures Basename(parent + "/" + name) == name
    ensures Basename(parent + "/" + name + "/") == name
  {
    var p := parent + "/" + name;
    assert p[|p| - 1] == name[|name| - 1];
    assert (p + "/")[..|p + "/"| - 1] == p;
    LastSegmentAfterSlash(parent, name);
  }

  lemma {:induction false} LastSegmentAfterSlash(parent: string, name: string)
    requires '/' !in name
    ensures LastSegment(parent + "/" + name) == name
    decreases |name|
  {
    var p := parent + "/" + name;
    if name == [] {
      assert p[|p| - 1] == '/';
    } else {
      var shorter := name[..|name| - 1];
      assert p[..|p| - 1] == parent + "/" + shorter;
      assert p[|p| - 1] == name[|name| - 1];
      LastSegmentAfterSlash(parent, shorter);
      assert shorter + [name[|name| - 1]] == name;
    }
  }

  /** The characters a session name keeps: [a-zA-Z0-9_-]. */
  predicate NameChar(c: char) {
    ('a' <= c <= 'z') || ('A' <= c <= 'Z') || ('0' <= c <= '9') || c == '_' || c == '-'
  }

  /** `.replace(/[^a-zA-Z0-9_-]/g, "_")`. */
  function Sanitize(s: string): (r: string)
    ensures |r| == |s|
    ensures forall i :: 0 <= i < |s| ==> r[i] == (if NameChar(s[i]) then s[i] else '_')
  {
    seq(|s|, i requires 0 <= i < |s| => if NameChar(s[i]) then s[i] else '_')
  }

  /** Sanitizing leaves only name characters, keeps a name made of them as it is, and
      changes any other: a fixpoint exactly on clean names. */
  lemma SanitizeExactly(s: string)
    ensures forall i :: 0 <= i < |Sanitize(s)| ==> NameChar(Sanitize(s)[i])
    ensures Sanitize(s) == s <==> forall i :: 0 <= i < |s| ==> NameChar(s[i])
    ensures Sanitize(Sanitize(s)) == Sanitize(s)
  {
    if Sanitize(s) == s {
      forall i | 0 <= i < |s|
        ensures NameChar(s[i])
      {
        assert Sanitize(s)[i] == s[i];
      }
    }
  }

  /** The session name for a directory: "tp-" and its sanitized basename. */
  function SessionName(dir: string): string {
    "tp-" + Sanitize(Basename(dir))
  }

  /** A session name is "tp-" followed by the basename, one character for each of
      its characters, and is made of name characters only. */
  lemma SessionNameShape(dir: string)
    ensures var r := SessionName(dir);
            && |r| == 3 + |Basename(dir)| && r[..3] == "tp-"
            && forall i :: 0 <= i < |r| ==> NameChar(r[i])
  {
    var b := Sanitize(Basename(dir));
    assert SessionName(dir)[..3] == "tp-";
    PrefixedNameChars("tp-", b);
  }

  lemma PrefixedNameChars(prefix: string, b: string)
    requires forall i :: 0 <= i < |prefix| ==> NameChar(prefix[i])
    requires forall i :: 0 <= i < |b| ==> b[i] == '_' || NameChar(b[i])
    ensures forall i :: 0 <= i < |prefix + b| ==> NameChar((prefix + b)[i])
  {
    forall i | 0 <= i < |prefix + b|
      ensures NameChar((prefix + b)[i])
    {
      if i >= |prefix| {
        assert (prefix + b)[i] == b[i - |prefix|];
      }
    }
  }

  /** The session for `parent/name`, with or without a trailing slash, is named after
      `name` alone. */
  lemma SessionNameOfPath(parent: string, name: string)
    requires name != [] && '/' !in name
    ensures SessionName(parent + "/" + name) == "tp-" + Sanitize(name)
    ensures SessionName(parent + "/" + name + "/") == "tp-" + Sanitize(name)
  {
    BasenameLaws(parent, name);
  }

  /** "my-project" is kept as it is and "my app.v2" becomes "my_app_v2". */
  lemma SanitizeExamples()
    ensures Sanitize("my-project") == "my-project"
    ensures Sanitize("my app.v2") == "my_app_v2"
  {
    SanitizeExactly("my-project");
    var r := Sanitize("my app.v2");
    assert r[2] == '_' && r[6] == '_';
    assert r == "my_app_v2";
  }

  // ---------------------------------------------------------------- settings

  /** The configuration keys launch and buildSession read, with their defaults applied
      (`?? "claude"` and so on: only a missing key falls back, an empty value stays). */
  datatype Settings = Settings(editor: string, sidebar: string, server: string, panes: string, editorSize: string)

  function ReadSettings(fs: Fs): (s: Settings)
    ensures GetConfig(fs, "editor").Some? ==> s.editor == GetConfig(fs, "editor").value
    ensures GetConfig(fs, "sidebar").Some? ==> s.sidebar == GetConfig(fs, "sidebar").value
    ensures GetConfig(fs, "server").Some? ==> s.server == GetConfig(fs, "server").value
    ensures GetConfig(fs, "panes").Some? ==> s.panes == GetConfig(fs, "panes").value
    ensures GetConfig(fs, "editor-size").Some? ==> s.editorSize == GetConfig(fs, "editor-size").value
    ensures GetConfig(fs, "editor").None? ==> s.editor == "claude"
    ensures GetConfig(fs, "sidebar").None? ==> s.sidebar == "lazygit"
    ensures GetConfig(fs, "server").None? ==> s.server == "true"
    ensures GetConfig(fs, "panes").None? ==> s.panes == "3"
    ensures GetConfig(fs, "editor-size").None? ==> s.editorSize == "75"
  {
    Settings(
      GetConfig(fs, "editor").GetOr("claude"),
      GetConfig(fs, "sidebar").GetOr("lazygit"),
      GetConfig(fs, "server").GetOr("true"),
      GetConfig(fs, "panes").GetOr("3"),
      GetConfig(fs, "editor-size").GetOr("75"))
  }

  /** The option bag buildSession hands to planLayout: the numbers through parseInt. */
  function SettingsOptions(s: Settings): (p: PartialOptions)
    ensures p.secondaryEditor.None?
    ensures p.editor == Some(s.editor) && p.sidebarCommand == Some(s.sidebar) && p.server == Some(s.server)
    ensures ParseInt(s.panes).Some? ==> p.editorPanes == ParseInt(s.panes)
    ensures ParseInt(s.editorSize).Some? ==> p.editorSize == ParseInt(s.editorSize)
  {
    PartialOptions(
      Some(s.editor),
      Some(ParseInt(s.panes).GetOr(1)),
      Some(ParseInt(s.editorSize).GetOr(75)),
      Some(s.sidebar),
      Some(s.server),
      None)
  }

  /** The commands launch makes sure of, in order: the editor and the sidebar when
      they are not empty, and the first word of a custom server command. */
  function CommandsToCheck(s: Settings): (cmds: seq<string>)
    ensures forall c :: c in cmds ==>
              (c == s.editor && c != "") || (c == s.sidebar && c != "") || c == FirstField(s.server, ' ')
    ensures FirstField(s.server, ' ') in cmds <== s.server !in {"", "true", "false"}
    ensures |cmds| == (if s.editor != "" then 1 else 0) + (if s.sidebar != "" then 1 else 0)
                      + (if s.server !in {"", "true", "false"} then 1 else 0)
    ensures s.editor != "" ==> cmds[0] == s.editor
    ensures s.sidebar != "" ==> cmds[if s.editor != "" then 1 else 0] == s.sidebar
    ensures s.server !in {"", "true", "false"} ==> cmds[|cmds| - 1] == FirstField(s.server, ' ')
  {
    (if s.editor != "" then [s.editor] else [])
    + (if s.sidebar != "" then [s.sidebar] else [])
    + (if s.server != "" && s.server != "true" && s.server != "false" then [FirstField(s.server, ' ')] else [])
  }

  /** An untouched machine configuration checks claude, then lazygit, and no server binary. */
  lemma DefaultCommands()
    ensures CommandsToCheck(Settings("claude", "lazygit", "true", "3", "75")) == ["claude", "lazygit"]
  {
    assert "true" in {"", "true", "false"};
  }

  /** A custom server such as "npm run dev" adds its binary to the commands checked. */
  lemma ServerCommandChecked()
    ensures CommandsToCheck(Settings("claude", "lazygit", "npm run dev", "3", "75")) == ["claude", "lazygit", "npm"]
  {
    var server := "npm run dev";
    assert server != "" && server != "true" && server != "false";
    CustomServerChecked(Settings("claude", "lazygit", server, "3", "75"));
    ServerBinary();
  }

  /** With an editor, a sidebar and a custom server command, all three are checked, the
      server by the first word of its command. */
  lemma CustomServerChecked(s: Settings)
    requires s.editor != "" && s.sidebar != "" && s.server !in {"", "true", "false"}
    ensures CommandsToCheck(s) == [s.editor, s.sidebar, FirstField(s.server, ' ')]
  {
  }

  /** A fresh machine reads the defaults, except the editor, which the seeded
      configuration sets to claude. */
  lemma DefaultSettings(fs: Fs)
    requires ConfigFile !in fs && ProjectsFile !in fs
    ensures ReadSettings(fs) == Settings("claude", "lazygit", "true", "3", "75")
  {
    FreshMachine(fs, "sidebar", "");
    FreshMachine(fs, "server", "");
    FreshMachine(fs, "panes", "");
    FreshMachine(fs, "editor-size", "");
  }

  lemma ServerBinary()
    ensures FirstField("npm run dev", ' ') == "npm"
  {
    assert "npm run dev"[3] == ' ';
    assert "npm run dev"[..3] == "npm";
    assert ' ' !in "npm";
  }

  // ---------------------------------------------------------------- tmux

  /** Whether a tmux command exits non-zero: a broken command, or a new session under a
      name already taken. */
  predicate Fails(m: Machine, op: TmuxOp) {
    op in m.brokenOps || (op.NewSession? && op.name in m.sessions)
  }

  /** The machine after a tmux command that succeeded. */
  function Apply(m: Machine, op: TmuxOp): Machine {
    if op.NewSession? then m.(sessions := m.sessions + {op.name}) else m
  }

  function TmuxEffects(ops: seq<TmuxOp>): (r: seq<Effect>)
    ensures |r| == |ops| && forall i :: 0 <= i < |ops| ==> r[i] == Tmux(ops[i])
  {
    seq(|ops|, i requires 0 <= i < |ops| => Tmux(ops[i]))
  }

  /** Runs tmux commands in order, each through execSync: the first one that fails
      throws, and nothing after it runs. */
  function RunTmux(m: Machine, ops: seq<TmuxOp>): (r: (bool, Machine, seq<Effect>))
    ensures |r.2| <= |ops| && forall i :: 0 <= i < |r.2| ==> r.2[i] == Tmux(ops[i])
    ensures r.0 ==> r.2 == TmuxEffects(ops)
    ensures !r.0 ==> r.2 != []
    ensures ops != [] && Fails(m, ops[0]) ==> !r.0 && r.2 == [Tmux(ops[0])]
    ensures !r.0 && |r.2| == 1 ==> Fails(m, ops[0])
    decreases |ops|
  {
    if ops == [] then (true, m, [])
    else if Fails(m, ops[0]) then (false, m, [Tmux(ops[0])])
    else
      var rest := RunTmux(Apply(m, ops[0]), ops[1..]);
      ConsEffects(ops, rest.2);
      (rest.0, rest.1, [Tmux(ops[0])] + rest.2)
  }

  /** The effects of the first command followed by effects of the rest are effects of
      them all. */
  lemma ConsEffects(ops: seq<TmuxOp>, ran: seq<Effect>)
    requires ops != [] && |ran| <= |ops| - 1
    requires forall i :: 0 <= i < |ran| ==> ran[i] == Tmux(ops[1..][i])
    ensures var r := [Tmux(ops[0])] + ran;
            |r| <= |ops| && forall i :: 0 <= i < |r| ==> r[i] == Tmux(ops[i])
    ensures ran == TmuxEffects(ops[1..]) ==> [Tmux(ops[0])] + ran == TmuxEffects(ops)
  {
    var r := [Tmux(ops[0])] + ran;
    forall i | 0 <= i < |r|
      ensures r[i] == Tmux(ops[i])
    {
      if i > 0 {
        assert r[i] == ran[i - 1] && ops[1..][i - 1] == ops[i];
      }
    }
    if ran == TmuxEffects(ops[1..]) {
      assert |r| == |ops|;
    }
  }

  /** A run in which no command is broken and only the first creates a session, under a
      free name, succeeds. */
  lemma {:induction false} RunTmuxSucceeds(m: Machine, ops: seq<TmuxOp>)
    ensures (forall i :: 0 <= i < |ops| ==>
               ops[i] !in m.brokenOps && (ops[i].NewSession? ==> i == 0 && ops[i].name !in m.sessions))
            ==> RunTmux(m, ops).0
    decreases |ops|
  {
    if ops != [] && forall i :: 0 <= i < |ops| ==>
         ops[i] !in m.brokenOps && (ops[i].NewSession? ==> i == 0 && ops[i].name !in m.sessions) {
      var m1 := Apply(m, ops[0]);
      var tail := ops[1..];
      assert m1.brokenOps == m.brokenOps;
      forall i | 0 <= i < |tail|
        ensures tail[i] !in m1.brokenOps && !tail[i].NewSession?
      {
        assert tail[i] == ops[i + 1];
      }
      RunTmuxSucceeds(m1, tail);
    }
  }

  /** A broken command stops the run: it fails at that command or earlier. */
  lemma {:induction false} RunTmuxStopsAtBroken(m: Machine, ops: seq<TmuxOp>, i: nat)
    requires i < |ops| && ops[i] in m.brokenOps
    ensures !RunTmux(m, ops).0 && |RunTmux(m, ops).2| <= i + 1
    decreases i
  {
    if i > 0 && !Fails(m, ops[0]) {
      var m1 := Apply(m, ops[0]);
      assert m1.brokenOps == m.brokenOps && ops[1..][i - 1] == ops[i];
      RunTmuxStopsAtBroken(m1, ops[1..], i - 1);
    }
  }

  /** Every broken command stops the run at or before it. */
  lemma RunTmuxStopsAtEveryBroken(m: Machine, ops: seq<TmuxOp>)
    ensures forall i :: 0 <= i < |ops| && ops[i] in m.brokenOps ==>
              !RunTmux(m, ops).0 && |RunTmux(m, ops).2| <= i + 1
  {
    forall i | 0 <= i < |ops| && ops[i] in m.brokenOps
      ensures !RunTmux(m, ops).0 && |RunTmux(m, ops).2| <= i + 1
    {
      RunTmuxStopsAtBroken(m, ops, i);
    }
  }

  /** A failed run stops at a command that is broken or creates a session. */
  lemma {:induction false} RunTmuxFailsAtCause(m: Machine, ops: seq<TmuxOp>)
    requires !RunTmux(m, ops).0
    ensures var ran := RunTmux(m, ops).2;
            ran[|ran| - 1].op in m.brokenOps || ran[|ran| - 1].op.NewSession?
    decreases |ops|
  {
    var run := RunTmux(m, ops);
    if Fails(m, ops[0]) {
      assert run.2 == [Tmux(ops[0])];
    } else {
      var m1 := Apply(m, ops[0]);
      var rest := RunTmux(m1, ops[1..]);
      assert run.2 == [Tmux(ops[0])] + rest.2;
      RunTmuxFailsAtCause(m1, ops[1..]);
      var last := rest.2[|rest.2| - 1];
      assert last.op in m1.brokenOps || last.op.NewSession?;
      assert run.2[|run.2| - 1] == last;
    }
  }

  /** Every command before the one a failed run stops at is not broken. */
  lemma {:induction false} RunTmuxFailsFirst(m: Machine, ops: seq<TmuxOp>)
    requires !RunTmux(m, ops).0
    ensures forall j :: 0 <= j < |RunTmux(m, ops).2| - 1 ==> ops[j] !in m.brokenOps
    decreases |ops|
  {
    if !Fails(m, ops[0]) {
      var m1 := Apply(m, ops[0]);
      var tail := ops[1..];
      var rest := RunTmux(m1, tail);
      assert RunTmux(m, ops).2 == [Tmux(ops[0])] + rest.2;
      RunTmuxFailsFirst(m1, tail);
      assert m1.brokenOps == m.brokenOps;
      forall j | 0 < j < |rest.2|
        ensures ops[j] !in m.brokenOps
      {
        assert ops[j] == tail[j - 1];
      }
    }
  }

  // ---------------------------------------------------------------- launch

  /** How launch ends: the process exits, launch returns after attaching to an existing
      session, returns after building and attaching, is left with an exception a
      failing tmux command threw while the session was built, or is left waiting on a
      prompt whose input has ended. */
  datatype Ending = Exited(code: int) | Joined(name: string) | Built(name: string) | Crashed | Abandoned

  datatype LaunchRun = LaunchRun(ending: Ending, trace: seq<Effect>)

  /** Everything before the session step: the directory check, ensureTmux and the checks
      of the configured commands. */
  function Preflight(m: Machine, s: Settings, dir: string): (r: Run)
    ensures dir !in m.directories ==> r.outcome == Exit(1) && r.trace == []
    ensures dir in m.directories ==> r.trace != [] && r.trace[0] == Probe("tmux")
    ensures r.outcome.Exit? ==> r.outcome.code == 1
    ensures r.outcome.Proceed? ==>
            Installed(r.outcome.machine, "tmux")
            && forall c :: c in CommandsToCheck(s) ==> Installed(r.outcome.machine, c)
    ensures dir in m.directories ==> EnsureTmux(m).trace <= r.trace
    ensures dir in m.directories && !EnsureTmux(m).outcome.Proceed? ==> r == EnsureTmux(m)
    ensures r.outcome.NoAnswer? ==> r.trace != [] && r.trace[|r.trace| - 1].Ask?
  {
    if dir !in m.directories then Run(Exit(1), [])
    else
      var t := EnsureTmux(m);
      match t.outcome
      case Proceed(m1) =>
        var deps := EnsureAll(m1, CommandsToCheck(s));
        Run(deps.outcome, t.trace + deps.trace)
      case _ => t
  }

  /** The plan buildSession lays out for these settings. */
  function SettingsPlan(s: Settings): Plan {
    PlanLayout(SettingsOptions(s))
  }

  /** Runs a build's tmux commands and then the final attach, whose failure launch
      swallows. When every command succeeds the attach follows; otherwise the first
      failing command throws, and the run holds the commands up to it and no attach. */
  function BuildRun(m: Machine, name: string, ops: seq<TmuxOp>, before: seq<Effect>): (r: LaunchRun)
    ensures r.ending == Built(name) || r.ending == Crashed
    ensures before <= r.trace
    ensures r.ending.Built? ==> r.trace == before + TmuxEffects(ops) + [Attach(name)]
    ensures r.ending.Crashed? ==> |before| < |r.trace| && r.trace <= before + TmuxEffects(ops)
  {
    var run := RunTmux(m, ops);
    TraceExtends(before, run.2, [Attach(name)]);
    TraceWithin(before, run.2, ops);
    if run.0 then LaunchRun(Built(name), before + run.2 + [Attach(name)])
    else LaunchRun(Crashed, before + run.2)
  }

  /** A build in which no command is broken and only the first creates a session, under
      a free name, ends built. */
  lemma BuildRunSucceeds(m: Machine, name: string, ops: seq<TmuxOp>, before: seq<Effect>)
    requires forall i :: 0 <= i < |ops| ==>
               ops[i] !in m.brokenOps && (ops[i].NewSession? ==> i == 0 && ops[i].name !in m.sessions)
    ensures BuildRun(m, name, ops, before).ending == Built(name)
  {
    RunTmuxSucceeds(m, ops);
  }

  /** A crashed build stopped at a command that is broken or creates a session (the
      first one only when its name is taken), and no command before it is broken. */
  lemma BuildRunCrashCause(m: Machine, name: string, ops: seq<TmuxOp>, before: seq<Effect>)
    requires BuildRun(m, name, ops, before).ending == Crashed
    ensures var k := |BuildRun(m, name, ops, before).trace| - |before| - 1;
            && 0 <= k < |ops|
            && (ops[k] in m.brokenOps || (ops[k].NewSession? && (k > 0 || ops[k].name in m.sessions)))
            && forall j :: 0 <= j < k ==> ops[j] !in m.brokenOps
  {
    var run := RunTmux(m, ops);
    assert BuildRun(m, name, ops, before).trace == before + run.2;
    RunTmuxFailsAtCause(m, ops);
    RunTmuxFailsFirst(m, ops);
    assert run.2[|run.2| - 1].op == ops[|run.2| - 1];
  }

  /** On commands whose only session-creating one is the first, for `name`, the build ends
      built exactly when the name is free and no command is broken. */
  lemma BuildRunBuiltExactly(m: Machine, name: string, ops: seq<TmuxOp>, before: seq<Effect>)
    requires ops != [] && ops[0].NewSession? && ops[0].name == name
    requires forall i :: 0 < i < |ops| ==> !ops[i].NewSession?
    ensures BuildRun(m, name, ops, before).ending.Built?
            <==> name !in m.sessions && forall i :: 0 <= i < |ops| ==> ops[i] !in m.brokenOps
  {
    RunTmuxSucceeds(m, ops);
    RunTmuxStopsAtEveryBroken(m, ops);
  }

  /** A crashed build of `ops` after `before` stopped at a command: no command before
      it is broken, and on a free name the one it stopped at is. */
  predicate StoppedAtBroken(m: Machine, name: string, ops: seq<TmuxOp>, before: seq<Effect>, trace: seq<Effect>) {
    var k := |trace| - |before| - 1;
    && 0 <= k < |ops|
    && (forall j :: 0 <= j < k ==> ops[j] !in m.brokenOps)
    && (name !in m.sessions ==> ops[k] in m.brokenOps)
  }

  /** A crashed build of such commands ran no broken command before the one it stopped
      at, and on a free name that one is broken. */
  lemma FreshBuildCrashCause(m: Machine, name: string, ops: seq<TmuxOp>, before: seq<Effect>)
    requires ops != [] && ops[0].NewSession? && ops[0].name == name
    requires forall i :: 0 < i < |ops| ==> !ops[i].NewSession?
    requires BuildRun(m, name, ops, before).ending == Crashed
    ensures StoppedAtBroken(m, name, ops, before, BuildRun(m, name, ops, before).trace)
  {
    BuildRunCrashCause(m, name, ops, before);
  }

  /** buildSession followed by the final attach. The build succeeds exactly when the name
      is free and none of its commands is broken; then every command runs and the attach
      follows. Otherwise launch ends with the exception, having run a non-empty prefix of
      the commands and no attach (BuildCrashCause says where it stopped). */
  function BuildAndAttach(m: Machine, s: Settings, dir: string, before: seq<Effect>): (r: LaunchRun)
    ensures r.ending == Built(SessionName(dir)) || r.ending == Crashed
    ensures before <= r.trace
    ensures var ops := SessionOps(SessionName(dir), dir, SettingsPlan(s));
            r.ending.Built? <==> SessionName(dir) !in m.sessions && forall i :: 0 <= i < |ops| ==> ops[i] !in m.brokenOps
    ensures var ops := SessionOps(SessionName(dir), dir, SettingsPlan(s));
            r.ending.Built? ==> r.trace == before + TmuxEffects(ops) + [Attach(SessionName(dir))]
    ensures var ops := SessionOps(SessionName(dir), dir, SettingsPlan(s));
            r.ending.Crashed? ==> |before| < |r.trace| && r.trace <= before + TmuxEffects(ops)
  {
    var name := SessionName(dir);
    var ops := SessionOps(name, dir, SettingsPlan(s));
    OnlyFirstOpCreates(name, dir, SettingsPlan(s));
    BuildRunBuiltExactly(m, name, ops, before);
    BuildRun(m, name, ops, before)
  }

  /** A crashed build of buildSession's commands ran every command before the one it
      stopped at without a broken one; on a free name the one it stopped at is broken. */
  lemma BuildCrashCause(m: Machine, s: Settings, dir: string, before: seq<Effect>)
    requires BuildAndAttach(m, s, dir, before).ending == Crashed
    ensures StoppedAtBroken(m, SessionName(dir), SessionOps(SessionName(dir), dir, SettingsPlan(s)),
                            before, BuildAndAttach(m, s, dir, before).trace)
  {
    var name := SessionName(dir);
    var ops := SessionOps(name, dir, SettingsPlan(s));
    BuildAndAttachRuns(m, s, dir, before);
    OnlyFirstOpCreates(name, dir, SettingsPlan(s));
    FreshBuildCrashCause(m, name, ops, before);
  }

  lemma TraceExtends(before: seq<Effect>, more: seq<Effect>, last: seq<Effect>)
    ensures before <= before + more && before <= before + more + last
  {
  }

  /** Effects that start the effects of `ops` extend `before` within them. */
  lemma TraceWithin(before: seq<Effect>, ran: seq<Effect>, ops: seq<TmuxOp>)
    requires |ran| <= |ops| && forall i :: 0 <= i < |ran| ==> ran[i] == Tmux(ops[i])
    ensures before + ran <= before + TmuxEffects(ops)
    ensures ran != [] ==> before < before + ran
  {
    assert ran == TmuxEffects(ops)[..|ran|];
  }

  /** How tmux resolves the session a `-t` target names: the session of exactly that
      name; failing that, the one session whose name starts with the target (when several
      do, none). A target written with a leading `=` accepts only the exact name. tmux's
      last resort, the target as an fnmatch pattern, finds nothing more for session
      names, which hold no pattern characters. */
  predicate Resolves(sessions: set<string>, target: string, exact: bool, s: string) {
    s in sessions
    && (s == target
        || (!exact && target !in sessions && target <= s
            && forall t :: t in sessions && target <= t ==> t == s))
  }

  /** A target resolves to at most one session. */
  lemma ResolvesUnique(sessions: set<string>, target: string, exact: bool, s1: string, s2: string)
    requires Resolves(sessions, target, exact, s1) && Resolves(sessions, target, exact, s2)
    ensures s1 == s2
  {
  }

  /** An exact target finds the session of that name and nothing else. */
  lemma ExactTargetResolvesName(sessions: set<string>, target: string, s: string)
    ensures Resolves(sessions, target, true, s) <==> s == target && target in sessions
  {
  }

  /** Without `=`, a target resolves as an exact one does unless it is missing and a
      running session's name extends it. */
  lemma PrefixTargetAgrees(sessions: set<string>, target: string, s: string)
    requires target in sessions || forall t :: t in sessions ==> !(target < t)
    ensures Resolves(sessions, target, false, s) <==> Resolves(sessions, target, true, s)
  {
  }

  /** A directory whose name is made of name characters gives its session that name. */
  lemma CleanSessionName(parent: string, name: string)
    requires name != [] && '/' !in name && forall i :: 0 <= i < |name| ==> NameChar(name[i])
    ensures SessionName(parent + "/" + name) == "tp-" + name
  {
    SessionNameOfPath(parent, name);
    SanitizeExactly(name);
  }

  /** A missing target with one running session that extends it resolves to that
      session unless the target is exact. */
  lemma PrefixTargetFindsExtension(target: string, other: string)
    requires target < other
    ensures Resolves({other}, target, false, other)
    ensures forall s :: !Resolves({other}, target, true, s)
  {
    forall s ensures !Resolves({other}, target, true, s) {
      ExactTargetResolvesName({other}, target, s);
    }
  }

  lemma LongerPrefixed(prefix: string, name: string, suffix: string)
    requires suffix != []
    ensures prefix + name < prefix + (name + suffix)
  {
    assert prefix + (name + suffix) == (prefix + name) + suffix;
  }

  /** The has-session and attach-session targets as written carry no `=`: launching in
      parent/name while only the session of a sibling whose name extends it runs (api
      beside a running api-v2) finds the sibling's session and joins it, where the exact
      target finds nothing. */
  lemma PrefixTargetJoinsOtherSession(parent: string, name: string, suffix: string)
    requires name != [] && forall i :: 0 <= i < |name| ==> NameChar(name[i])
    requires suffix != [] && forall i :: 0 <= i < |suffix| ==> NameChar(suffix[i])
    ensures var target := SessionName(parent + "/" + name);
            var other := SessionName(parent + "/" + (name + suffix));
            && target != other
            && Resolves({other}, target, false, other)
            && forall s :: !Resolves({other}, target, true, s)
  {
    var longer := name + suffix;
    forall i | 0 <= i < |longer|
      ensures NameChar(longer[i])
    {
      if i >= |name| {
        assert longer[i] == suffix[i - |name|];
      }
    }
    CleanSessionName(parent, name);
    CleanSessionName(parent, longer);
    LongerPrefixed("tp-", name, suffix);
    PrefixTargetFindsExtension("tp-" + name, "tp-" + longer);
  }

  /** The corrected session step looks the session up by its exact name: it joins
      exactly when an exact target resolves, and joins the session of that name. */
  lemma SessionStepExactLookup(m: Machine, s: Settings, dir: string, before: seq<Effect>)
    ensures var r := SessionStep(m, s, dir, before);
            && (r.ending.Joined? <==> Resolves(m.sessions, SessionName(dir), true, SessionName(dir)))
            && (r.ending.Joined? ==> Resolves(m.sessions, SessionName(dir), true, r.ending.name))
  {
  }

  /** The session step as written: has-session and attach-session share one try block,
      so an attach that fails on an existing session is taken for a missing session. */
  function SessionStepAsWritten(m: Machine, s: Settings, dir: string, before: seq<Effect>): (r: LaunchRun)
    ensures SessionName(dir) in m.sessions && m.attachWorks ==>
            r.ending == Joined(SessionName(dir))
            && r.trace == before + [HasSession(SessionName(dir))] + [Attach(SessionName(dir))]
    ensures SessionName(dir) in m.sessions && !m.attachWorks ==>
            (r.ending == Built(SessionName(dir)) || r.ending == Crashed)
            && before + [HasSession(SessionName(dir))] + [Attach(SessionName(dir))] <= r.trace
    ensures SessionName(dir) !in m.sessions ==> r.ending == Built(SessionName(dir)) || r.ending == Crashed
  {
    var name := SessionName(dir);
    var asked := before + [HasSession(name)];
    if name in m.sessions && m.attachWorks then LaunchRun(Joined(name), asked + [Attach(name)])
    else if name in m.sessions then BuildAndAttach(m, s, dir, asked + [Attach(name)])
    else BuildAndAttach(m, s, dir, asked)
  }

  /** The session step as its comments describe it: an existing session is only ever
      attached to, whether or not the attach succeeds; a build happens only when there
      is none. */
  function SessionStep(m: Machine, s: Settings, dir: string, before: seq<Effect>): (r: LaunchRun)
    ensures SessionName(dir) in m.sessions ==>
            r.ending == Joined(SessionName(dir))
            && r.trace == before + [HasSession(SessionName(dir))] + [Attach(SessionName(dir))]
    ensures SessionName(dir) !in m.sessions ==> r.ending == Built(SessionName(dir)) || r.ending == Crashed
  {
    var name := SessionName(dir);
    var asked := before + [HasSession(name)];
    if name in m.sessions then LaunchRun(Joined(name), asked + [Attach(name)])
    else BuildAndAttach(m, s, dir, asked)
  }

  /** launch as written, for the given machine, configuration and directory. */
  function LaunchAsWritten(m: Machine, fs: Fs, dir: string): (r: LaunchRun)
    ensures r.ending.Exited? ==> r.ending.code == 1
    ensures dir !in m.directories ==> r == LaunchRun(Exited(1), [])
  {
    LaunchAsWrittenWith(m, ReadSettings(fs), dir)
  }

  function LaunchAsWrittenWith(m: Machine, s: Settings, dir: string): (r: LaunchRun)
    ensures r.ending.Exited? ==> r.ending.code == 1
    ensures dir !in m.directories ==> r == LaunchRun(Exited(1), [])
    ensures r.ending.Abandoned? ==> r.trace != [] && r.trace[|r.trace| - 1].Ask?
  {
    var pre := Preflight(m, s, dir);
    match pre.outcome
    case Exit(code) => LaunchRun(Exited(code), pre.trace)
    case NoAnswer => LaunchRun(Abandoned, pre.trace)
    case Proceed(m1) => SessionStepAsWritten(m1, s, dir, pre.trace)
  }

  /** launch, corrected in its session step. */
  function Launch(m: Machine, fs: Fs, dir: string): (r: LaunchRun)
    ensures r.ending.Exited? ==> r.ending.code == 1
    ensures dir !in m.directories ==> r == LaunchRun(Exited(1), [])
    ensures r.ending.Abandoned? ==> r.trace != [] && r.trace[|r.trace| - 1].Ask?
  {
    LaunchWith(m, ReadSettings(fs), dir)
  }

  function LaunchWith(m: Machine, s: Settings, dir: string): (r: LaunchRun)
    ensures r.ending.Exited? ==> r.ending.code == 1
    ensures dir !in m.directories ==> r.ending == Exited(1) && r.trace == []
    ensures r.ending.Abandoned? ==> r.trace != [] && r.trace[|r.trace| - 1].Ask?
  {
    var pre := Preflight(m, s, dir);
    match pre.outcome
    case Exit(code) => LaunchRun(Exited(code), pre.trace)
    case NoAnswer => LaunchRun(Abandoned, pre.trace)
    case Proceed(m1) => SessionStep(m1, s, dir, pre.trace)
  }

  // ---------------------------------------------------------------- properties

  /** No tmux command runs and no session is joined unless tmux and every configured
      command were found, possibly after installing them; an exit leaves a trace of
      probes, prompts and installs only. */
  lemma NothingWithoutDependencies(m: Machine, s: Settings, dir: string)
    ensures var r := LaunchWith(m, s, dir);
            r.ending.Joined? || r.ending.Built? || r.ending.Crashed? ==>
              && dir in m.directories
              && Preflight(m, s, dir).outcome.Proceed?
              && Installed(Preflight(m, s, dir).outcome.machine, "tmux")
              && forall c :: c in CommandsToCheck(s) ==> Installed(Preflight(m, s, dir).outcome.machine, c)
    ensures var r := LaunchWith(m, s, dir);
            r.ending.Exited? || r.ending.Abandoned? ==> forall e :: e in r.trace ==> e.Probe? || e.Ask? || e.Install?
  {
    PreflightEffects(m, s, dir);
  }

  /** The preflight only probes, asks and installs. */
  lemma PreflightEffects(m: Machine, s: Settings, dir: string)
    ensures forall e :: e in Preflight(m, s, dir).trace ==> e.Probe? || e.Ask? || e.Install?
  {
    if dir in m.directories {
      var t := EnsureTmux(m);
      EnsureEffects(m, "tmux", TmuxInstaller);
      if t.outcome.Proceed? {
        EnsureAllEffects(t.outcome.machine, CommandsToCheck(s));
      }
    }
  }

  lemma EnsureEffects(m: Machine, cmd: string, lookup: Machine -> Lookup)
    ensures forall e :: e in Ensure(m, cmd, lookup).trace ==> e.Probe? || e.Ask? || e.Install?
  {
    if !Installed(m, cmd) {
      var found := lookup(m);
      var probes := seq(|found.probes|, i requires 0 <= i < |found.probes| => Probe(found.probes[i]));
      assert forall e :: e in probes ==> e.Probe?;
      match found.installCommand
      case None =>
        assert Ensure(m, cmd, lookup).trace == [Probe(cmd)] + probes;
      case Some(install) =>
        var asked := [Probe(cmd)] + probes + [Ask(install)];
        var trace := Ensure(m, cmd, lookup).trace;
        assert forall e :: e in asked ==> e.Probe? || e.Ask?;
        if m.replies == [] || !Consents(m.replies[0]) {
          assert trace == asked;
        } else {
          match RunInstall(m.(replies := m.replies[1..]), install)
          case None =>
            assert trace == asked + [Install(install)];
          case Some(_) =>
            assert trace == asked + [Install(install), Probe(cmd)];
        }
    }
  }

  lemma {:induction false} EnsureAllEffects(m: Machine, cmds: seq<string>)
    ensures forall e :: e in EnsureAll(m, cmds).trace ==> e.Probe? || e.Ask? || e.Install?
    decreases |cmds|
  {
    if cmds != [] {
      var first := EnsureCommand(m, cmds[0]);
      EnsureEffects(m, cmds[0], (m': Machine) => KnownInstaller(m', cmds[0]));
      if first.outcome.Proceed? {
        EnsureAllEffects(first.outcome.machine, cmds[1..]);
      }
    }
  }

  /** When everything is installed the preflight is exactly one probe per command: tmux,
      then the configured commands in order. */
  lemma PreflightWhenInstalled(m: Machine, s: Settings, dir: string)
    requires dir in m.directories && Installed(m, "tmux")
    requires forall c :: c in CommandsToCheck(s) ==> Installed(m, c)
    ensures var cmds := CommandsToCheck(s);
            Preflight(m, s, dir) ==
            Run(Proceed(m), [Probe("tmux")] + seq(|cmds|, i requires 0 <= i < |cmds| => Probe(cmds[i])))
  {
  }

  /** An existing session is joined: one has-session query, one attach, and no other
      tmux command. */
  lemma ExistingSessionJoined(m: Machine, s: Settings, dir: string)
    requires dir in m.directories && Installed(m, "tmux")
    requires forall c :: c in CommandsToCheck(s) ==> Installed(m, c)
    requires SessionName(dir) in m.sessions
    ensures var r := LaunchWith(m, s, dir);
            && r.ending == Joined(SessionName(dir))
            && r.trace == Preflight(m, s, dir).trace + [HasSession(SessionName(dir))] + [Attach(SessionName(dir))]
  {
    PreflightWhenInstalled(m, s, dir);
  }

  /** As written, too, an existing session whose attach works is joined with one
      has-session query and one attach. */
  lemma ExistingSessionJoinedAsWritten(m: Machine, s: Settings, dir: string)
    requires dir in m.directories && Installed(m, "tmux")
    requires forall c :: c in CommandsToCheck(s) ==> Installed(m, c)
    requires SessionName(dir) in m.sessions && m.attachWorks
    ensures var r := LaunchAsWrittenWith(m, s, dir);
            && r.ending == Joined(SessionName(dir))
            && r.trace == Preflight(m, s, dir).trace + [HasSession(SessionName(dir))] + [Attach(SessionName(dir))]
  {
    ExistingSessionJoined(m, s, dir);
    VersionsAgreeOtherwise(m, s, dir);
  }

  /** A missing session is built from the configuration and then attached: the trace
      is the preflight, the has-session query, buildSession's commands and the attach. */
  lemma MissingSessionBuilt(m: Machine, s: Settings, dir: string)
    requires dir in m.directories && Installed(m, "tmux")
    requires forall c :: c in CommandsToCheck(s) ==> Installed(m, c)
    requires SessionName(dir) !in m.sessions && m.brokenOps == {}
    ensures var name := SessionName(dir);
            var r := LaunchWith(m, s, dir);
            && r.ending == Built(name)
            && r.trace == Preflight(m, s, dir).trace + [HasSession(name)]
                          + TmuxEffects(SessionOps(name, dir, SettingsPlan(s))) + [Attach(name)]
  {
    PreflightWhenInstalled(m, s, dir);
    BuildSucceeds(m, s, dir, Preflight(m, s, dir).trace + [HasSession(SessionName(dir))]);
  }

  /** With a free session name and no failing tmux command, the build runs every command
      of buildSession and then attaches. */
  lemma BuildSucceeds(m: Machine, s: Settings, dir: string, before: seq<Effect>)
    requires SessionName(dir) !in m.sessions && m.brokenOps == {}
    ensures var name := SessionName(dir);
            && BuildAndAttach(m, s, dir, before).ending == Built(name)
            && BuildAndAttach(m, s, dir, before).trace
               == before + TmuxEffects(SessionOps(name, dir, SettingsPlan(s))) + [Attach(name)]
  {
    var name := SessionName(dir);
    var ops := SessionOps(name, dir, SettingsPlan(s));
    BuildAndAttachRuns(m, s, dir, before);
    OnlyFirstOpCreates(name, dir, SettingsPlan(s));
    BuildRunSucceeds(m, name, ops, before);
  }

  /** buildSession creates the session with its first command and never again. */
  lemma OnlyFirstOpCreates(name: string, dir: string, plan: Plan)
    ensures var ops := SessionOps(name, dir, plan);
            ops[0] == NewSession(name, dir)
            && forall i :: 0 <= i < |ops| && ops[i].NewSession? ==> i == 0
  {
    var ops := SessionOps(name, dir, plan);
    var l := LeftSplits(plan, dir);
    var r := RightSplits(plan, dir);
    forall i | 1 <= i < |ops|
      ensures !ops[i].NewSession?
    {
      if 4 <= i < 4 + |l| {
        assert ops[i] == l[i - 4];
      } else if 4 + |l| <= i < 4 + |l| + |r| {
        assert ops[i] == r[i - 4 - |l|];
      }
    }
  }

  /** A tmux command failing while the session is built ends launch with the exception:
      nothing after the failing command runs and there is no attach. The session is
      already created when a later command fails (`display` on window 0 under
      `base-index 1`, for one), and nothing removes it. */
  lemma BuildFailureCrashes(m: Machine, s: Settings, dir: string, i: nat)
    requires dir in m.directories && Installed(m, "tmux")
    requires forall c :: c in CommandsToCheck(s) ==> Installed(m, c)
    requires SessionName(dir) !in m.sessions
    requires var ops := SessionOps(SessionName(dir), dir, SettingsPlan(s));
             i < |ops| && ops[i] in m.brokenOps
    ensures LaunchWith(m, s, dir).ending == Crashed
    ensures |Preflight(m, s, dir).trace| + 1 < |LaunchWith(m, s, dir).trace|
    ensures var ops := SessionOps(SessionName(dir), dir, SettingsPlan(s));
            LaunchWith(m, s, dir).trace
            <= Preflight(m, s, dir).trace + [HasSession(SessionName(dir))] + TmuxEffects(ops[..i + 1])
    ensures Attach(SessionName(dir)) !in LaunchWith(m, s, dir).trace
  {
    var name := SessionName(dir);
    var ops := SessionOps(name, dir, SettingsPlan(s));
    var pre := Preflight(m, s, dir).trace + [HasSession(name)];
    LaunchBuilds(m, s, dir);
    BuildAndAttachRuns(m, s, dir, pre);
    PreflightNoAttach(m, s, dir, name);
    BuildRunCrashesAt(m, name, ops, pre, i);
  }

  /** The preflight attaches to nothing. */
  lemma PreflightNoAttach(m: Machine, s: Settings, dir: string, name: string)
    ensures Attach(name) !in Preflight(m, s, dir).trace
  {
    PreflightEffects(m, s, dir);
  }

  /** The first broken command of the build is the last thing launch does. */
  lemma FirstBrokenEndsLaunch(m: Machine, s: Settings, dir: string, i: nat)
    requires dir in m.directories && Installed(m, "tmux")
    requires forall c :: c in CommandsToCheck(s) ==> Installed(m, c)
    requires SessionName(dir) !in m.sessions
    requires var ops := SessionOps(SessionName(dir), dir, SettingsPlan(s));
             && i < |ops| && ops[i] in m.brokenOps
             && forall j :: 0 <= j < i ==> ops[j] !in m.brokenOps
    ensures var ops := SessionOps(SessionName(dir), dir, SettingsPlan(s));
            LaunchWith(m, s, dir)
            == LaunchRun(Crashed, Preflight(m, s, dir).trace + [HasSession(SessionName(dir))] + TmuxEffects(ops[..i + 1]))
  {
    var name := SessionName(dir);
    var ops := SessionOps(name, dir, SettingsPlan(s));
    var pre := Preflight(m, s, dir).trace + [HasSession(name)];
    LaunchBuilds(m, s, dir);
    BuildAndAttachRuns(m, s, dir, pre);
    OnlyFirstOpCreates(name, dir, SettingsPlan(s));
    BuildRunStopsAtFirstBroken(m, name, ops, pre, i);
  }

  /** Once the dependencies are found and the session is missing, launch is the build
      after the preflight's probes and the has-session query. */
  lemma LaunchBuilds(m: Machine, s: Settings, dir: string)
    requires dir in m.directories && Installed(m, "tmux")
    requires forall c :: c in CommandsToCheck(s) ==> Installed(m, c)
    requires SessionName(dir) !in m.sessions
    ensures LaunchWith(m, s, dir)
            == BuildAndAttach(m, s, dir, Preflight(m, s, dir).trace + [HasSession(SessionName(dir))])
  {
    PreflightWhenInstalled(m, s, dir);
  }

  /** buildSession's build is the general build run over buildSession's commands. */
  lemma BuildAndAttachRuns(m: Machine, s: Settings, dir: string, before: seq<Effect>)
    ensures BuildAndAttach(m, s, dir, before)
            == BuildRun(m, SessionName(dir), SessionOps(SessionName(dir), dir, SettingsPlan(s)), before)
  {
  }

  /** A broken command in a build ends it with the exception, at or before that command,
      with only tmux commands after `before`. */
  lemma BuildRunCrashesAt(m: Machine, name: string, ops: seq<TmuxOp>, before: seq<Effect>, i: nat)
    requires i < |ops| && ops[i] in m.brokenOps
    ensures BuildRun(m, name, ops, before).ending == Crashed
    ensures |before| < |BuildRun(m, name, ops, before).trace|
    ensures BuildRun(m, name, ops, before).trace <= before + TmuxEffects(ops[..i + 1])
    ensures before + BuildRun(m, name, ops, before).trace[|before|..] == BuildRun(m, name, ops, before).trace
    ensures Attach(name) !in BuildRun(m, name, ops, before).trace[|before|..]
  {
    RunTmuxStopsAtBroken(m, ops, i);
    var r := BuildRun(m, name, ops, before);
    CrashedWithin(before, r.trace, ops, i + 1);
  }

  /** A crashed build's effects after `before` are the first commands of `ops`: within
      the first n commands when no more than n ran, and only tmux commands. */
  lemma CrashedWithin(before: seq<Effect>, trace: seq<Effect>, ops: seq<TmuxOp>, n: nat)
    requires trace <= before + TmuxEffects(ops) && |before| <= |trace| <= |before| + n && n <= |ops|
    ensures trace <= before + TmuxEffects(ops[..n])
    ensures forall e :: e in trace[|before|..] ==> e.Tmux?
  {
    var ran := trace[|before|..];
    assert trace == before + ran;
    assert forall j :: 0 <= j < |ran| ==> ran[j] == (before + TmuxEffects(ops))[|before| + j] == Tmux(ops[j]);
    TraceWithin(before, ran, ops[..n]);
  }

  /** With the only session-creating command first and on a free name, a build stops
      exactly at its first broken command. */
  lemma BuildRunStopsAtFirstBroken(m: Machine, name: string, ops: seq<TmuxOp>, before: seq<Effect>, i: nat)
    requires i < |ops| && ops[i] in m.brokenOps
    requires forall j :: 0 <= j < i ==> ops[j] !in m.brokenOps
    requires forall j :: 0 < j < |ops| ==> !ops[j].NewSession?
    requires ops[0].NewSession? ==> ops[0].name !in m.sessions
    ensures BuildRun(m, name, ops, before) == LaunchRun(Crashed, before + TmuxEffects(ops[..i + 1]))
  {
    StopsAtFirstBroken(m, ops, i);
    var run := RunTmux(m, ops);
    assert run.2 == TmuxEffects(ops[..i + 1]);
  }

  /** A run whose only session-creating command comes first, on a free name, stops exactly
      at its first broken command. */
  lemma {:induction false} StopsAtFirstBroken(m: Machine, ops: seq<TmuxOp>, i: nat)
    requires i < |ops| && ops[i] in m.brokenOps
    requires forall j :: 0 <= j < i ==> ops[j] !in m.brokenOps
    requires forall j :: 0 < j < |ops| ==> !ops[j].NewSession?
    requires ops[0].NewSession? ==> ops[0].name !in m.sessions
    ensures !RunTmux(m, ops).0 && |RunTmux(m, ops).2| == i + 1
    decreases i
  {
    if i > 0 {
      assert !Fails(m, ops[0]);
      var m1 := Apply(m, ops[0]);
      assert m1.brokenOps == m.brokenOps;
      StopsAtFirstBroken(m1, ops[1..], i - 1);
    }
  }


  /** As written, an attach that fails on an existing session (tmux refuses to attach
      from inside tmux, for one) falls through to buildSession, whose new-session then
      fails on the taken name: launch ends with an exception instead of returning. The
      corrected step returns after the failed attach. */
  lemma AttachFailureRebuilds(m: Machine, s: Settings, dir: string)
    requires dir in m.directories && Installed(m, "tmux")
    requires forall c :: c in CommandsToCheck(s) ==> Installed(m, c)
    requires SessionName(dir) in m.sessions && !m.attachWorks
    ensures var name := SessionName(dir);
            && LaunchAsWrittenWith(m, s, dir).ending == Crashed
            && LaunchAsWrittenWith(m, s, dir).trace
               == Preflight(m, s, dir).trace + [HasSession(name)] + [Attach(name)] + [Tmux(NewSession(name, dir))]
    ensures LaunchWith(m, s, dir).ending == Joined(SessionName(dir))
  {
    var name := SessionName(dir);
    PreflightWhenInstalled(m, s, dir);
    OnlyFirstOpCreates(name, dir, SettingsPlan(s));
    var run := RunTmux(m, SessionOps(name, dir, SettingsPlan(s)));
    assert !run.0 && run.2 == [Tmux(NewSession(name, dir))];
  }

  /** The two versions agree everywhere except on an existing session whose attach fails. */
  lemma VersionsAgreeOtherwise(m: Machine, s: Settings, dir: string)
    requires !(SessionName(dir) in m.sessions && !m.attachWorks)
    ensures LaunchAsWrittenWith(m, s, dir) == LaunchWith(m, s, dir)
  {
    var pre := Preflight(m, s, dir);
    if pre.outcome.Proceed? {
      PreflightKeepsTmuxState(m, s, dir);
    }
  }

  /** The preflight neither starts sessions nor changes what tmux can do. */
  lemma PreflightKeepsTmuxState(m: Machine, s: Settings, dir: string)
    ensures var pre := Preflight(m, s, dir);
            pre.outcome.Proceed? ==>
              pre.outcome.machine.sessions == m.sessions
              && pre.outcome.machine.attachWorks == m.attachWorks
              && pre.outcome.machine.brokenOps == m.brokenOps
  {
    if dir in m.directories {
      EnsureKeepsTmuxState(m, "tmux", TmuxInstaller);
      var t := EnsureTmux(m);
      if t.outcome.Proceed? {
        EnsureAllKeepsTmuxState(t.outcome.machine, CommandsToCheck(s));
      }
    }
  }

  lemma EnsureKeepsTmuxState(m: Machine, cmd: string, lookup: Machine -> Lookup)
    ensures var r := Ensure(m, cmd, lookup);
            r.outcome.Proceed? ==>
              r.outcome.machine.sessions == m.sessions
              && r.outcome.machine.attachWorks == m.attachWorks
              && r.outcome.machine.brokenOps == m.brokenOps
  {
  }

  lemma {:induction false} EnsureAllKeepsTmuxState(m: Machine, cmds: seq<string>)
    ensures var r := EnsureAll(m, cmds);
            r.outcome.Proceed? ==>
              r.outcome.machine.sessions == m.sessions
              && r.outcome.machine.attachWorks == m.attachWorks
              && r.outcome.machine.brokenOps == m.brokenOps
    decreases |cmds|
  {
    if cmds != [] {
      EnsureKeepsTmuxState(m, cmds[0], (m': Machine) => KnownInstaller(m', cmds[0]));
      var first := EnsureCommand(m, cmds[0]);
      if first.outcome.Proceed? {
        EnsureAllKeepsTmuxState(first.outcome.machine, cmds[1..]);
      }
    }
  }
}

=== FILE: layout.dfy ===
/**
 The layout planner: merges a partial option bag over fixed defaults and turns the
 result into a pane plan (column counts, widths, server pane, secondary editor).
 Pure and total.
 */
module Layout {
  import opened Optional

  /** A fully populated option bag. */
  datatype Options = Options(
    editor: string,          // command for editor panes; "" means a plain shell
    editorPanes: int,        // total number of editor panes
    editorSize: int,         // width of the editor grid, in percent
    sidebarCommand: string,  // command for the sidebar; "" means a plain shell
    server: string,          // "true", "false", "" or a literal shell command
    secondaryEditor: string)

  /** An option bag in which any field may be left out. */
  datatype PartialOptions = PartialOptions(
    editor: Option<string>,
    editorPanes: Option<int>,
    editorSize: Option<int>,
    sidebarCommand: Option<string>,
    server: Option<string>,
    secondaryEditor: Option<string>)

  const NoOptions: PartialOptions := PartialOptions(None, None, None, None, None, None)

  /** The hard defaults every plan starts from. */
  const Defaults: Options := Options("claude", 3, 75, "lazygit", "true", "")

  /** The computed pane plan. */
  datatype Plan = Plan(
    editorSize: int,
    sidebarSize: int,
    leftColumnCount: int,
    rightColumnEditorCount: int,
    editor: string,
    sidebarCommand: string,
    hasServer: bool,
    serverCommand: Option<string>,   // None: a plain shell in the server pane
    secondaryEditor: Option<string>)

  /** How a server directive reads: is there a server pane, and what runs in it. */
  datatype ServerDirective = ServerDirective(hasServer: bool, command: Option<string>)

  /** Shallow merge `{ ...Defaults, ...p }`: each supplied field wins over its default. */
  function Merge(p: PartialOptions): Options {
    Options(
      p.editor.GetOr(Defaults.editor),
      p.editorPanes.GetOr(Defaults.editorPanes),
      p.editorSize.GetOr(Defaults.editorSize),
      p.sidebarCommand.GetOr(Defaults.sidebarCommand),
      p.server.GetOr(Defaults.server),
      p.secondaryEditor.GetOr(Defaults.secondaryEditor))
  }

  /** The three-way reading of a server directive: "" and "false" mean no server,
      "true" a server pane with a plain shell, anything else a server pane running
      that very string. */
  function ParseServer(value: string): (d: ServerDirective)
    ensures d.hasServer <==> value != "" && value != "false"
    ensures d.command.Some? <==> d.hasServer && value != "true"
    ensures d.command.Some? ==> d.command.value == value
  {
    if value == "false" || value == "" then ServerDirective(false, None)
    else if value == "true" then ServerDirective(true, None)
    else ServerDirective(true, Some(value))
  }

  /** The canonical directive text for a reading: the inverse of `ParseServer`. */
  function DirectiveText(d: ServerDirective): string {
    if !d.hasServer then "false"
    else if d.command.None? then "true"
    else d.command.value
  }

  /** A reading that some directive produces. */
  predicate Readable(d: ServerDirective) {
    (!d.hasServer ==> d.command.None?) &&
    (d.command.Some? ==> d.command.value !in {"", "true", "false"})
  }

  /** Every reading `ParseServer` produces is readable, and writing it back and
      reading again gives the same reading. */
  lemma ServerDirectiveRoundTrip(d: ServerDirective)
    requires Readable(d)
    ensures ParseServer(DirectiveText(d)) == d
  {
  }

  /** Reading then writing a directive gives it back, except that "" is written "false". */
  lemma ServerTextRoundTrip(value: string)
    ensures Readable(ParseServer(value))
    ensures DirectiveText(ParseServer(value)) == (if value == "" then "false" else value)
  {
  }

  /** The left column takes the larger half of the editor panes: Math.ceil(n / 2).
      Dafny's division rounds toward negative infinity, so (n + 1) / 2 is the
      ceiling of n / 2 for every integer n. */
  function LeftColumnCount(n: int): (l: int)
    ensures n <= 2 * l <= n + 1
  {
    (n + 1) / 2
  }

  /** `LeftColumnCount` is the ceiling of n / 2: the least l with 2 * l >= n. */
  lemma LeftColumnIsCeiling(n: int, l: int)
    requires 2 * l >= n
    ensures LeftColumnCount(n) <= l
  {
  }

  /** planLayout: merge, then derive the plan. */
  function PlanLayout(p: PartialOptions): (plan: Plan)
    ensures plan.editorSize + plan.sidebarSize == 100
    ensures plan.leftColumnCount + plan.rightColumnEditorCount == Merge(p).editorPanes
    ensures plan.rightColumnEditorCount <= plan.leftColumnCount <= plan.rightColumnEditorCount + 1
    ensures plan.editorSize == Merge(p).editorSize
    ensures plan.editor == Merge(p).editor && plan.sidebarCommand == Merge(p).sidebarCommand
    ensures plan.hasServer <==> Merge(p).server != "" && Merge(p).server != "false"
    ensures plan.serverCommand.Some? <==> plan.hasServer && Merge(p).server != "true"
    ensures plan.serverCommand.Some? ==> plan.serverCommand.value == Merge(p).server
    ensures plan.secondaryEditor.None? <==> Merge(p).secondaryEditor == ""
    ensures plan.secondaryEditor.Some? ==> plan.secondaryEditor.value == Merge(p).secondaryEditor
  {
    var opts := Merge(p);
    var left := LeftColumnCount(opts.editorPanes);
    var server := ParseServer(opts.server);
    Plan(
      opts.editorSize,
      100 - opts.editorSize,
      left,
      opts.editorPanes - left,
      opts.editor,
      opts.sidebarCommand,
      server.hasServer,
      server.command,
      if opts.secondaryEditor == "" then None else Some(opts.secondaryEditor))
  }

  /** The column-balancing table for one to six editor panes. */
  lemma ColumnTable(n: int)
    requires 1 <= n <= 6
    ensures var plan := PlanLayout(NoOptions.(editorPanes := Some(n)));
            (plan.leftColumnCount, plan.rightColumnEditorCount)
              == [(1, 0), (1, 1), (2, 1), (2, 2), (3, 2), (3, 3)][n - 1]
  {
  }

  /** An empty option bag plans the default workspace. */
  lemma DefaultPlan()
    ensures PlanLayout(NoOptions) ==
            Plan(75, 25, 2, 1, "claude", "lazygit", true, None, None)
  {
  }

  /** The sidebar takes the complement of the editor width, unclamped. */
  lemma SidebarComplement(p: PartialOptions, size: int)
    ensures PlanLayout(p.(editorSize := Some(size))).sidebarSize == 100 - size
  {
  }

  /** Overriding one field of the bag changes exactly that field of the merged options,
      and the string fields pass through verbatim (the empty string included). */
  lemma OverrideIsFieldwise(p: PartialOptions, s: string, n: int)
    ensures Merge(p.(editor := Some(s))) == Merge(p).(editor := s)
    ensures Merge(p.(editorPanes := Some(n))) == Merge(p).(editorPanes := n)
    ensures Merge(p.(editorSize := Some(n))) == Merge(p).(editorSize := n)
    ensures Merge(p.(sidebarCommand := Some(s))) == Merge(p).(sidebarCommand := s)
    ensures Merge(p.(server := Some(s))) == Merge(p).(server := s)
    ensures Merge(p.(secondaryEditor := Some(s))) == Merge(p).(secondaryEditor := s)
  {
  }

  /** The named presets. */
  datatype PresetName = Minimal | Full | Pair | Cli | Mtop

  /** The name under which a preset is written in configuration. */
  function PresetKey(p: PresetName): string {
    match p
    case Minimal => "minimal"
    case Full => "full"
    case Pair => "pair"
    case Cli => "cli"
    case Mtop => "mtop"
  }

  /** isPresetName, narrowing the string to the preset it names. */
  function PresetNamed(s: string): (r: Option<PresetName>)
    ensures r.Some? ==> PresetKey(r.value) == s
    ensures r.None? ==> forall p :: PresetKey(p) != s
  {
    if s == "minimal" then Some(Minimal)
    else if s == "full" then Some(Full)
    else if s == "pair" then Some(Pair)
    else if s == "cli" then Some(Cli)
    else if s == "mtop" then Some(Mtop)
    else None
  }

  predicate IsPresetName(s: string) {
    PresetNamed(s).Some?
  }

  /** Exactly the five preset names are accepted. */
  lemma PresetNamesExactly(s: string)
    ensures IsPresetName(s) <==> s in {"minimal", "full", "pair", "cli", "mtop"}
  {
  }

  /** Reading a preset's own name gives that preset back. */
  lemma PresetNameRoundTrip(p: PresetName)
    ensures PresetNamed(PresetKey(p)) == Some(p)
  {
  }

  /** The partial option bag each preset supplies. */
  function GetPreset(p: PresetName): PartialOptions {
    match p
    case Minimal => NoOptions.(editorPanes := Some(1), server := Some("false"))
    case Full => NoOptions.(editorPanes := Some(3), server := Some("true"))
    case Pair => NoOptions.(editorPanes := Some(2), server := Some("true"))
    case Cli => NoOptions.(editorPanes := Some(1), server := Some("npm login"))
    case Mtop => NoOptions.(editorPanes := Some(2), server := Some("true"), secondaryEditor := Some("mtop"))
  }

  /** What planning each preset on its own gives. Presets leave the editor, sidebar and
      widths at their defaults. */
  lemma PresetPlans(p: PresetName)
    ensures var plan := PlanLayout(GetPreset(p));
            && plan.editor == "claude" && plan.sidebarCommand == "lazygit"
            && plan.editorSize == 75 && plan.sidebarSize == 25
            && (p == Minimal ==> plan.leftColumnCount == 1 && plan.rightColumnEditorCount == 0
                                 && !plan.hasServer && plan.serverCommand == None)
            && (p == Full ==> plan.leftColumnCount == 2 && plan.rightColumnEditorCount == 1
                              && plan.hasServer && plan.serverCommand == None)
            && (p == Pair ==> plan.leftColumnCount == 1 && plan.rightColumnEditorCount == 1
                              && plan.hasServer && plan.serverCommand == None)
            && (p == Cli ==> plan.leftColumnCount == 1 && plan.rightColumnEditorCount == 0
                             && plan.hasServer && plan.serverCommand == Some("npm login"))
            && (p == Mtop ==> plan.secondaryEditor == Some("mtop") && plan.hasServer)
            && (p != Mtop ==> plan.secondaryEditor == None)
  {
  }
}

=== FILE: optional.dfy ===
/** A value that may be missing: `undefined` or `null` in the launcher's own terms. */
module Optional {

  datatype Option<+T> = None | Some(value: T) {

    /** The wrapped value, or `default` when there is none (the `??` operator). */
    function GetOr(default: T): T {
      match this
      case Some(v) => v
      case None => default
    }
  }
}

=== FILE: session.dfy ===
/**
 buildSession: the tmux commands that lay a computed plan out as panes.

 The commands are abstract operations. A pane is named by the step that created
 it instead of by the id tmux hands back: the root pane of the new session, the
 sidebar, the right column's first pane, and the i-th extra pane of either
 column. A split gives the new pane `percent` of its target, and the new pane
 is the target of the next split in the same column.
 */
module Session {
  import opened Optional
  import opened Layout

  datatype Direction = Horizontal | Vertical

  datatype Pane = Root | Sidebar | RightColumn | LeftPane(index: int) | RightPane(index: int)

  datatype TmuxOp =
    | NewSession(name: string, cwd: string)     // new-session -d -s name -c cwd
    | DisplayRoot(name: string)                 // display -t name:0 (reads the root pane id)
    | Split(target: Pane, direction: Direction, percent: int, cwd: string, command: Option<string>)
    | Respawn(target: Pane, cwd: string, program: string)
    | SelectPane(target: Pane)

  /** `command || undefined`: the empty command leaves a plain shell. */
  function Shell(command: string): (r: Option<string>)
    ensures r.None? <==> command == ""
    ensures r.Some? ==> r.value == command
  {
    if command == "" then None else Some(command)
  }

  /** The percentage for a split that leaves `k` more panes to place below the new
      one: floor(k / (k + 1) * 100). */
  function SplitPercent(k: int): int
    requires k >= 1
  {
    (100 * k) / (k + 1)
  }

  /** The loop `for (i = 1; i < n; i++)` runs this many times. */
  function Extra(n: int): nat {
    if n > 1 then n - 1 else 0
  }

  /** Panes in the right column: its editors plus the server pane when there is one. */
  function TotalRight(plan: Plan): int {
    plan.rightColumnEditorCount + (if plan.hasServer then 1 else 0)
  }

  /** The pane the `j`-th extra split of the left column splits. */
  function LeftTarget(j: int): Pane {
    if j == 0 then Root else LeftPane(j)
  }

  /** The pane the `j`-th extra split of the right column splits. */
  function RightTarget(j: int): Pane {
    if j == 0 then RightColumn else RightPane(j)
  }

  /** Whether the `j`-th extra split of the right column is the server pane. */
  predicate IsServerSplit(plan: Plan, j: int) {
    plan.hasServer && j + 1 == TotalRight(plan) - 1
  }

  /** The command the `j`-th extra split of the right column runs. */
  function RightCommand(plan: Plan, j: int): Option<string> {
    if IsServerSplit(plan, j) then plan.serverCommand else Shell(plan.editor)
  }

  /** The extra editor panes of the left column, each splitting the one before. */
  function LeftSplits(plan: Plan, dir: string): seq<TmuxOp> {
    var n := plan.leftColumnCount;
    seq(Extra(n), j requires 0 <= j < Extra(n) =>
      Split(LeftTarget(j), Vertical, SplitPercent(n - 1 - j), dir, Shell(plan.editor)))
  }

  /** The extra panes of the right column: editors, and the server pane last. */
  function RightSplits(plan: Plan, dir: string): seq<TmuxOp> {
    var n := TotalRight(plan);
    seq(Extra(n), j requires 0 <= j < Extra(n) =>
      Split(RightTarget(j), Vertical, SplitPercent(n - 1 - j), dir, RightCommand(plan, j)))
  }

  /** The operations buildSession issues, in order. */
  function SessionOps(name: string, dir: string, plan: Plan): seq<TmuxOp> {
    [ NewSession(name, dir),
      DisplayRoot(name),
      Split(Root, Horizontal, plan.sidebarSize, dir, Shell(plan.sidebarCommand)),
      Split(Root, Horizontal, 50, dir, Shell(plan.editor)) ]
    + LeftSplits(plan, dir)
    + RightSplits(plan, dir)
    + (if plan.editor != "" then [Respawn(Root, dir, plan.editor)] else [])
    + [SelectPane(Root)]
  }

  /** buildSession: the header, the two column loops, then the editor respawn and the
      pane selection. */
  method BuildSession(name: string, dir: string, plan: Plan) returns (ops: seq<TmuxOp>)
    ensures ops == SessionOps(name, dir, plan)
  {
    var left := LeftColumnLoop(plan, dir);
    var right := RightColumnLoop(plan, dir);
    ops := [NewSession(name, dir), DisplayRoot(name)];
    ops := ops + [Split(Root, Horizontal, plan.sidebarSize, dir, Shell(plan.sidebarCommand))];
    ops := ops + [Split(Root, Horizontal, 50, dir, Shell(plan.editor))];
    ops := ops + left + right;
    if plan.editor != "" {
      ops := ops + [Respawn(Root, dir, plan.editor)];
    }
    ops := ops + [SelectPane(Root)];
  }

  /** The left column loop of buildSession: each new pane splits the one made before it. */
  method LeftColumnLoop(plan: Plan, dir: string) returns (ops: seq<TmuxOp>)
    ensures ops == LeftSplits(plan, dir)
  {
    var left := plan.leftColumnCount;
    var target := Root;
    ops := [];
    var i := 1;
    while i < left
      invariant 1 <= i <= Extra(left) + 1
      invariant target == LeftTarget(i - 1)
      invariant ops == LeftSplits(plan, dir)[..i - 1]
    {
      var step := Split(target, Vertical, SplitPercent(left - i), dir, Shell(plan.editor));
      PrefixStep(LeftSplits(plan, dir), i);
      ops := ops + [step];
      target := LeftPane(i);
      i := i + 1;
    }
    assert LeftSplits(plan, dir)[..i - 1] == LeftSplits(plan, dir);
  }

  /** The right column loop of buildSession: the editors, then the server pane last. */
  method RightColumnLoop(plan: Plan, dir: string) returns (ops: seq<TmuxOp>)
    ensures ops == RightSplits(plan, dir)
  {
    var totalRight := TotalRight(plan);
    var target := RightColumn;
    ops := [];
    var i := 1;
    while i < totalRight
      invariant 1 <= i <= Extra(totalRight) + 1
      invariant target == RightTarget(i - 1)
      invariant ops == RightSplits(plan, dir)[..i - 1]
    {
      var isServer := plan.hasServer && i == totalRight - 1;
      var cmd := if isServer then plan.serverCommand else Shell(plan.editor);
      var step := Split(target, Vertical, SplitPercent(totalRight - i), dir, cmd);
      PrefixStep(RightSplits(plan, dir), i);
      ops := ops + [step];
      target := RightPane(i);
      i := i + 1;
    }
    assert RightSplits(plan, dir)[..i - 1] == RightSplits(plan, dir);
  }

  /** A prefix one longer is the shorter prefix and the next element. */
  lemma PrefixStep<T>(s: seq<T>, i: int)
    requires 0 < i <= |s|
    ensures s[..i] == s[..i - 1] + [s[i - 1]]
  {
  }

  // ---------------------------------------------------------------- properties

  /** Every vertical split gives the new pane between half and all but one percent. */
  lemma SplitPercentBounds(k: int)
    requires k >= 1
    ensures 50 <= SplitPercent(k) <= 99
  {
    var p, d := SplitPercent(k), k + 1;
    var r := (100 * k) % d;
    assert 100 * k == p * d + r && 0 <= r < d;
    assert (p + 1) * d == p * d + d;
    assert (p + 1) * d > 50 * d;
    MulCancel(p + 1, 50, d);
    assert 100 * d > p * d;
    MulCancel(100, p, d);
  }

  lemma MulCancel(a: int, b: int, c: int)
    requires c > 0 && a * c > b * c
    ensures a > b
  {
    if a <= b {
      MulMono(a, b, c);
    }
  }

  lemma MulMono(a: int, b: int, c: int)
    requires c > 0 && a <= b
    ensures a * c <= b * c
  {
  }

  /** The share of its target a split would ideally give the new pane when `k` more
      panes are to be placed in it: k / (k + 1). */
  function IdealFraction(k: nat): real {
    (k as real) / ((k + 1) as real)
  }

  /** The percentage is the ideal fraction rounded down to a whole percent. */
  lemma SplitPercentIsFloor(k: int)
    requires k >= 1
    ensures (SplitPercent(k) as real) / 100.0 <= IdealFraction(k)
    ensures IdealFraction(k) < ((SplitPercent(k) + 1) as real) / 100.0
  {
    var p := SplitPercent(k);
    assert p * (k + 1) <= 100 * k < (p + 1) * (k + 1);
    assert (p as real) * ((k + 1) as real) <= 100.0 * (k as real);
    assert 100.0 * (k as real) < ((p + 1) as real) * ((k + 1) as real);
  }

  /** The fractions that divide a column into `k + 1` equal panes, one per split: the
      first split gives the new pane k/(k+1) of the column, the next gives its new pane
      (k-1)/k of that, and so on down to 1/2. */
  function IdealSchedule(k: nat): (fractions: seq<real>)
    ensures |fractions| == k
  {
    seq(k, j requires 0 <= j < k => IdealFraction(k - j))
  }

  /** The heights a column of height `h` ends with when it is split by `fractions` in
      turn: each split gives the new pane its fraction of the target, the target keeps
      the rest, and the next split splits the new pane. */
  function SharesOf(h: real, fractions: seq<real>): seq<real>
    decreases |fractions|
  {
    if fractions == [] then [h]
    else [h - h * fractions[0]] + SharesOf(h * fractions[0], fractions[1..])
  }

  /** Past its first step, the schedule for `k` is the schedule for `k - 1`. */
  lemma IdealScheduleTail(k: nat)
    requires k > 0
    ensures IdealSchedule(k)[0] == IdealFraction(k)
    ensures IdealSchedule(k)[1..] == IdealSchedule(k - 1)
  {
    var tail := IdealSchedule(k)[1..];
    forall j | 0 <= j < k - 1
      ensures tail[j] == IdealSchedule(k - 1)[j]
    {
      assert tail[j] == IdealSchedule(k)[j + 1];
    }
  }

  /** One split of a column: the target keeps its share, the new pane is split further. */
  lemma SharesOfStep(h: real, fractions: seq<real>)
    requires fractions != []
    ensures SharesOf(h, fractions)
            == [h - h * fractions[0]] + SharesOf(h * fractions[0], fractions[1..])
  {
  }

  /** Splitting by the ideal schedule leaves every pane of the column the same height. */
  lemma {:induction false} ColumnSharesEqual(h: real, k: nat)
    ensures |SharesOf(h, IdealSchedule(k))| == k + 1
    ensures forall j :: 0 <= j < |SharesOf(h, IdealSchedule(k))| ==>
              SharesOf(h, IdealSchedule(k))[j] == h / ((k + 1) as real)
    decreases k
  {
    var all := SharesOf(h, IdealSchedule(k));
    var share := h / ((k + 1) as real);
    if k == 0 {
      assert all == [h];
    } else {
      var sched := IdealSchedule(k);
      IdealScheduleTail(k);
      var rest := h * IdealFraction(k);
      var later := SharesOf(rest, IdealSchedule(k - 1));
      SharesOfStep(h, sched);
      assert sched[0] == IdealFraction(k) && sched[1..] == IdealSchedule(k - 1);
      assert h * sched[0] == rest;
      assert SharesOf(h * sched[0], sched[1..]) == later;
      assert all == [h - rest] + later;
      ColumnSharesEqual(rest, k - 1);
      EqualShareStep(h, k);
      assert h - rest == share;
      assert forall i :: 0 <= i < |later| ==> later[i] == share;
      forall j | 0 <= j < |all|
        ensures all[j] == share
      {
        if j > 0 {
          assert all[j] == later[j - 1];
        }
      }
    }
  }

  /** The target keeps one share of `k + 1`, and what the new pane takes, shared among
      its own `k` panes, is one share as well. */
  lemma EqualShareStep(h: real, k: nat)
    requires k > 0
    ensures h - h * IdealFraction(k) == h / ((k + 1) as real)
    ensures (h * IdealFraction(k)) / (((k - 1) + 1) as real) == h / ((k + 1) as real)
  {
    var n := (k + 1) as real;
    var share := h / n;
    assert h == share * n;
    assert IdealFraction(k) * n == k as real;
    assert h * IdealFraction(k) == share * (k as real);
  }

  /** The left column's percentages are, split for split, the ideal schedule for its
      panes rounded down to a whole percent, and that schedule divides a column of any
      height `h` into equal panes: buildSession sizes the left column evenly, up to the
      rounding. */
  lemma LeftScheduleEqualises(plan: Plan, dir: string, h: real)
    ensures var l := LeftSplits(plan, dir);
            var ideal := IdealSchedule(Extra(plan.leftColumnCount));
            && |l| == |ideal|
            && (forall j :: 0 <= j < |l| ==>
                  && (l[j].percent as real) / 100.0 <= ideal[j]
                  && ideal[j] < ((l[j].percent + 1) as real) / 100.0)
            && (forall j :: 0 <= j < |SharesOf(h, ideal)| ==>
                  SharesOf(h, ideal)[j] == h / ((|l| + 1) as real))
  {
    var n := plan.leftColumnCount;
    var l := LeftSplits(plan, dir);
    var ideal := IdealSchedule(Extra(n));
    forall j | 0 <= j < |l|
      ensures (l[j].percent as real) / 100.0 <= ideal[j] < ((l[j].percent + 1) as real) / 100.0
    {
      assert ideal[j] == IdealFraction(n - 1 - j);
      SplitPercentIsFloor(n - 1 - j);
    }
    ColumnSharesEqual(h, Extra(n));
  }

  /** The same for the right column, whose panes are its editors and the server pane. */
  lemma RightScheduleEqualises(plan: Plan, dir: string, h: real)
    ensures var r := RightSplits(plan, dir);
            var ideal := IdealSchedule(Extra(TotalRight(plan)));
            && |r| == |ideal|
            && (forall j :: 0 <= j < |r| ==>
                  && (r[j].percent as real) / 100.0 <= ideal[j]
                  && ideal[j] < ((r[j].percent + 1) as real) / 100.0)
            && (forall j :: 0 <= j < |SharesOf(h, ideal)| ==>
                  SharesOf(h, ideal)[j] == h / ((|r| + 1) as real))
  {
    var n := TotalRight(plan);
    var r := RightSplits(plan, dir);
    var ideal := IdealSchedule(Extra(n));
    forall j | 0 <= j < |r|
      ensures (r[j].percent as real) / 100.0 <= ideal[j] < ((r[j].percent + 1) as real) / 100.0
    {
      assert ideal[j] == IdealFraction(n - 1 - j);
      SplitPercentIsFloor(n - 1 - j);
    }
    ColumnSharesEqual(h, Extra(n));
  }

  /** The shape of the whole sequence: a session is created first and the root
      selected last; in between come the two horizontal splits, the extra panes of
      each column, and the respawn of the root with the editor when there is one. */
  lemma SessionShape(name: string, dir: string, plan: Plan)
    ensures var ops := SessionOps(name, dir, plan);
            && |ops| == 5 + Extra(plan.leftColumnCount) + Extra(TotalRight(plan))
                          + (if plan.editor != "" then 1 else 0)
            && ops[0] == NewSession(name, dir)
            && ops[|ops| - 1] == SelectPane(Root)
            && ops[2].Split? && ops[2].direction == Horizontal && ops[2].percent == plan.sidebarSize
            && ops[3].Split? && ops[3].direction == Horizontal && ops[3].percent == 50
  {
  }

  /** Count of the panes buildSession creates: the root, the sidebar, the right
      column's first pane, and the extra panes of each column. */
  function SplitCount(ops: seq<TmuxOp>): nat {
    if ops == [] then 0
    else SplitCount(ops[..|ops| - 1]) + (if ops[|ops| - 1].Split? then 1 else 0)
  }

  lemma SplitCountSnoc(a: seq<TmuxOp>, op: TmuxOp)
    ensures SplitCount(a + [op]) == SplitCount(a) + (if op.Split? then 1 else 0)
  {
    assert (a + [op])[..|a|] == a;
  }

  lemma {:induction false} SplitCountAppend(a: seq<TmuxOp>, b: seq<TmuxOp>)
    ensures SplitCount(a + b) == SplitCount(a) + SplitCount(b)
    decreases |b|
  {
    if b == [] {
      assert a + b == a;
    } else {
      var b' := b[..|b| - 1];
      assert (a + b)[..|a + b| - 1] == a + b';
      SplitCountAppend(a, b');
    }
  }

  lemma {:induction false} SplitCountAll(ops: seq<TmuxOp>)
    requires forall j :: 0 <= j < |ops| ==> ops[j].Split?
    ensures SplitCount(ops) == |ops|
    decreases |ops|
  {
    if ops != [] {
      SplitCountAll(ops[..|ops| - 1]);
    }
  }

  /** The four operations before the column loops. */
  function Head(name: string, dir: string, plan: Plan): seq<TmuxOp> {
    [ NewSession(name, dir), DisplayRoot(name),
      Split(Root, Horizontal, plan.sidebarSize, dir, Shell(plan.sidebarCommand)),
      Split(Root, Horizontal, 50, dir, Shell(plan.editor)) ]
  }

  /** The operations after the column loops. */
  function Tail(dir: string, plan: Plan): seq<TmuxOp> {
    (if plan.editor != "" then [Respawn(Root, dir, plan.editor)] else []) + [SelectPane(Root)]
  }

  lemma HeadSplits(name: string, dir: string, plan: Plan)
    ensures SplitCount(Head(name, dir, plan)) == 2
  {
    var h := Head(name, dir, plan);
    assert h == [] + [h[0]] + [h[1]] + [h[2]] + [h[3]];
    SplitCountSnoc([], h[0]);
    SplitCountSnoc([h[0]], h[1]);
    SplitCountSnoc([h[0]] + [h[1]], h[2]);
    SplitCountSnoc([h[0]] + [h[1]] + [h[2]], h[3]);
  }

  lemma TailSplits(dir: string, plan: Plan)
    ensures SplitCount(Tail(dir, plan)) == 0
  {
    var t := Tail(dir, plan);
    if plan.editor != "" {
      SplitCountSnoc([], Respawn(Root, dir, plan.editor));
      SplitCountSnoc([Respawn(Root, dir, plan.editor)], SelectPane(Root));
      assert t == [Respawn(Root, dir, plan.editor)] + [SelectPane(Root)];
    } else {
      SplitCountSnoc([], SelectPane(Root));
      assert t == [] + [SelectPane(Root)];
    }
  }

  /** The session splits a pane twice for the two columns, then once per extra pane of
      each column. */
  lemma SplitTotal(name: string, dir: string, plan: Plan)
    ensures SplitCount(SessionOps(name, dir, plan))
            == 2 + Extra(plan.leftColumnCount) + Extra(TotalRight(plan))
  {
    var head := Head(name, dir, plan);
    var l := LeftSplits(plan, dir);
    var r := RightSplits(plan, dir);
    var tail := Tail(dir, plan);
    assert SessionOps(name, dir, plan) == head + l + r + tail;
    SplitCountOfParts(head, l, r, tail);
    SplitCountAll(l);
    SplitCountAll(r);
    HeadSplits(name, dir, plan);
    TailSplits(dir, plan);
  }

  lemma SplitCountOfParts(a: seq<TmuxOp>, b: seq<TmuxOp>, c: seq<TmuxOp>, d: seq<TmuxOp>)
    ensures SplitCount(a + b + c + d) == SplitCount(a) + SplitCount(b) + SplitCount(c) + SplitCount(d)
  {
    SplitCountAppend(a + b + c, d);
    SplitCountAppend(a + b, c);
    SplitCountAppend(a, b);
  }

  /** The session holds 1 + SplitCount panes: with editors in both columns that is every
      editor pane, the sidebar, and the server pane when the plan asks for one. */
  lemma PaneCount(name: string, dir: string, plan: Plan)
    requires plan.rightColumnEditorCount >= 1 && plan.leftColumnCount >= 1
    ensures 1 + SplitCount(SessionOps(name, dir, plan))
            == plan.leftColumnCount + plan.rightColumnEditorCount + 1 + (if plan.hasServer then 1 else 0)
  {
    SplitTotal(name, dir, plan);
  }

  /** The server pane: when there is a server and at least one right-column editor, it
      is the last split of the right column, at 50 percent, running the server command;
      every other extra pane runs the editor. */
  lemma ServerPaneLast(plan: Plan, dir: string)
    requires plan.hasServer && plan.rightColumnEditorCount >= 1
    ensures var r := RightSplits(plan, dir);
            && |r| == plan.rightColumnEditorCount
            && r[|r| - 1] == Split(RightTarget(|r| - 1), Vertical, 50, dir, plan.serverCommand)
            && forall j :: 0 <= j < |r| - 1 ==> r[j].command == Shell(plan.editor)
  {
  }

  /** Without a server every extra pane of the right column runs the editor. */
  lemma NoServerAllEditors(plan: Plan, dir: string)
    requires !plan.hasServer
    ensures var r := RightSplits(plan, dir);
            && |r| == Extra(plan.rightColumnEditorCount)
            && forall j :: 0 <= j < |r| ==> r[j].command == Shell(plan.editor)
  {
  }

  /** With a server but no right-column editor the right column is the editor pane
      split off the root and nothing else: the loop never reaches the server pane, so
      no pane runs the server command. */
  lemma ServerDroppedWithoutRightEditors(plan: Plan, dir: string)
    requires plan.hasServer && plan.rightColumnEditorCount == 0
    ensures RightSplits(plan, dir) == []
  {
  }

  /** The one-pane preset with a custom server command ("cli") plans a server, yet the
      session it builds has the root, the sidebar and a second editor pane only. */
  lemma CliPresetLosesServer(name: string, dir: string)
    ensures var plan := PlanLayout(GetPreset(Cli));
            && plan.hasServer && plan.serverCommand == Some("npm login")
            && SessionOps(name, dir, plan) ==
               [ NewSession(name, dir), DisplayRoot(name),
                 Split(Root, Horizontal, 25, dir, Some("lazygit")),
                 Split(Root, Horizontal, 50, dir, Some("claude")),
                 Respawn(Root, dir, "claude"),
                 SelectPane(Root) ]
  {
    var plan := PlanLayout(GetPreset(Cli));
    assert LeftSplits(plan, dir) == [];
    assert RightSplits(plan, dir) == [];
  }

  /** The default plan: two editor panes on the left, the right column's editor over
      the server shell, the sidebar at 25 percent. */
  lemma DefaultSession(name: string, dir: string)
    ensures SessionOps(name, dir, PlanLayout(NoOptions)) ==
            [ NewSession(name, dir), DisplayRoot(name),
              Split(Root, Horizontal, 25, dir, Some("lazygit")),
              Split(Root, Horizontal, 50, dir, Some("claude")),
              Split(Root, Vertical, 50, dir, Some("claude")),
              Split(RightColumn, Vertical, 50, dir, None),
              Respawn(Root, dir, "claude"),
              SelectPane(Root) ]
  {
    var plan := PlanLayout(NoOptions);
    DefaultPlan();
    assert LeftSplits(plan, dir) == [Split(Root, Vertical, 50, dir, Some("claude"))];
    assert RightSplits(plan, dir) == [Split(RightColumn, Vertical, 50, dir, None)];
  }

  /** No split and no respawn ever carries an empty command: an empty editor, sidebar
      or server command leaves a plain shell. */
  lemma NoEmptyCommands(name: string, dir: string, plan: Plan)
    requires plan.serverCommand.Some? ==> plan.serverCommand.value != ""
    ensures forall op :: op in SessionOps(name, dir, plan) && op.Split? && op.command.Some? ==>
              op.command.value != ""
    ensures forall op :: op in SessionOps(name, dir, plan) && op.Respawn? ==> op.program != ""
  {
  }
}

=== FILE: text.dfy ===
/**
 The few string primitives of ECMAScript that the launcher relies on:
 `trim`, `indexOf` of one character, `split` and `join` on one character,
 `toLowerCase` (ASCII letters only) and `parseInt` in radix 10.
 */
module Text {
  import opened Optional

  /** The characters `String.prototype.trim` removes: ECMAScript WhiteSpace
      and LineTerminator code points. */
  predicate IsSpace(c: char) {
    var n := c as int;
    || n == 0x09 || n == 0x0A || n == 0x0B || n == 0x0C || n == 0x0D
    || n == 0x20 || n == 0xA0 || n == 0x1680
    || (0x2000 <= n <= 0x200A)
    || n == 0x2028 || n == 0x2029 || n == 0x202F || n == 0x205F
    || n == 0x3000 || n == 0xFEFF
  }

  /** Drops the whitespace at the front of `s`. */
  function TrimStart(s: string): (r: string)
    ensures |r| <= |s| && r == s[|s| - |r|..]
    ensures forall i :: 0 <= i < |s| - |r| ==> IsSpace(s[i])
    ensures r == [] || !IsSpace(r[0])
  {
    if s != [] && IsSpace(s[0]) then TrimStart(s[1..]) else s
  }

  /** Drops the whitespace at the back of `s`. */
  function TrimEnd(s: string): (r: string)
    ensures |r| <= |s| && r == s[..|r|]
    ensures forall i :: |r| <= i < |s| ==> IsSpace(s[i])
    ensures r == [] || !IsSpace(r[|r| - 1])
  {
    if s != [] && IsSpace(s[|s| - 1]) then TrimEnd(s[..|s| - 1]) else s
  }

  /** `s.trim()`: drops the whitespace at both ends. */
  function Trim(s: string): (r: string)
    ensures |r| <= |s|
    ensures r == [] || (!IsSpace(r[0]) && !IsSpace(r[|r| - 1]))
  {
    TrimEnd(TrimStart(s))
  }

  /** `trim` removes nothing but whitespace: its result is the infix of `s` left
      once a whitespace prefix and a whitespace suffix are cut away. */
  lemma TrimKeepsInfix(s: string)
    ensures var r := Trim(s);
            exists i :: 0 <= i <= |s| - |r| && r == s[i..][..|r|]
                        && (forall j :: 0 <= j < i ==> IsSpace(s[j]))
                        && (forall j :: i + |r| <= j < |s| ==> IsSpace(s[j]))
  {
    var t := TrimStart(s);
    var r := TrimEnd(t);
    var i := |s| - |t|;
    assert t == s[i..];
    assert r == s[i..][..|r|];
    forall j | i + |r| <= j < |s|
      ensures IsSpace(s[j])
    {
      assert s[j] == t[j - i];
    }
  }

  /** A string whose two ends are not whitespace is its own trim. */
  lemma {:induction false} TrimOfTrimmed(s: string)
    requires s == [] || (!IsSpace(s[0]) && !IsSpace(s[|s| - 1]))
    ensures Trim(s) == s
  {
  }

  /** Trailing whitespace appended to a string with a non-space last character
      is exactly what `trim` takes away. */
  lemma {:induction false} TrimEndOfPadded(s: string, pad: string)
    requires s != [] && !IsSpace(s[|s| - 1])
    requires forall i :: 0 <= i < |pad| ==> IsSpace(pad[i])
    ensures TrimEnd(s + pad) == s
    decreases |pad|
  {
    if pad == [] {
      assert s + pad == s;
    } else {
      var shorter := pad[..|pad| - 1];
      assert (s + pad)[..|s + pad| - 1] == s + shorter;
      TrimEndOfPadded(s, shorter);
    }
  }

  /** Leading whitespace before a string with a non-space first character is exactly
      what `trimStart` takes away. */
  lemma {:induction false} TrimStartOfPadded(pad: string, s: string)
    requires s != [] && !IsSpace(s[0])
    requires forall i :: 0 <= i < |pad| ==> IsSpace(pad[i])
    ensures TrimStart(pad + s) == s
    decreases |pad|
  {
    if pad == [] {
      assert pad + s == s;
    } else {
      assert (pad + s)[0] == pad[0];
      assert (pad + s)[1..] == pad[1..] + s;
      TrimStartOfPadded(pad[1..], s);
    }
  }

  /** A string with non-space ends followed by a newline trims back to itself. */
  lemma TrimNewlineTerminated(s: string)
    requires s != [] && !IsSpace(s[0]) && !IsSpace(s[|s| - 1])
    ensures Trim(s + "\n") == s
  {
    assert (s + "\n")[0] == s[0];
    assert TrimStart(s + "\n") == s + "\n";
    TrimEndOfPadded(s, "\n");
  }

  /** `s.indexOf(c)`: the position of the first `c` in `s`, or nothing (-1). */
  function IndexOf(s: string, c: char): (r: Option<nat>)
    ensures r.None? <==> c !in s
    ensures r.Some? ==> r.value < |s| && s[r.value] == c && c !in s[..r.value]
  {
    if s == [] then None
    else if s[0] == c then Some(0)
    else
      match IndexOf(s[1..], c)
      case None => None
      case Some(i) =>
        assert s[..i + 1] == [s[0]] + s[1..][..i];
        Some(i + 1)
  }

  /** `parts.join(sep)` for a one-character separator. */
  function Join(parts: seq<string>, sep: char): string
  {
    if |parts| == 0 then ""
    else if |parts| == 1 then parts[0]
    else parts[0] + [sep] + Join(parts[1..], sep)
  }

  /** `s.split(sep)` for a one-character separator: the pieces between separators,
      one more piece than there are separators, none of them holding `sep`. */
  function Split(s: string, sep: char): (parts: seq<string>)
    ensures |parts| >= 1
    ensures forall i :: 0 <= i < |parts| ==> sep !in parts[i]
    ensures Join(parts, sep) == s
    decreases |s|
  {
    match IndexOf(s, sep)
    case None => [s]
    case Some(i) =>
      var rest := Split(s[i + 1..], sep);
      assert s == s[..i] + [sep] + s[i + 1..];
      [s[..i]] + rest
  }

  /** Splitting undoes joining, when no part holds the separator. */
  lemma {:induction false} SplitJoin(parts: seq<string>, sep: char)
    requires |parts| >= 1
    requires forall i :: 0 <= i < |parts| ==> sep !in parts[i]
    ensures Split(Join(parts, sep), sep) == parts
    decreases |parts|
  {
    if |parts| == 1 {
      assert IndexOf(parts[0], sep).None?;
    } else {
      var tail := Join(parts[1..], sep);
      var s := parts[0] + [sep] + tail;
      assert Join(parts, sep) == s;
      assert s[|parts[0]|] == sep;
      assert s[..|parts[0]|] == parts[0];
      var idx := IndexOf(s, sep);
      assert idx == Some(|parts[0]|) by {
        assert sep !in s[..|parts[0]|];
      }
      assert s[|parts[0]| + 1..] == tail;
      SplitJoin(parts[1..], sep);
      assert parts == [parts[0]] + parts[1..];
    }
  }

  /** The text before the first `sep` (`s.split(sep)[0]`). */
  function FirstField(s: string, sep: char): (r: string)
    ensures sep !in r
    ensures r == s || (|r| < |s| && s[..|r|] == r && s[|r|] == sep)
  {
    match IndexOf(s, sep)
    case None => s
    case Some(i) => s[..i]
  }

  function LowerChar(c: char): char {
    if 'A' <= c <= 'Z' then (c as int + 32) as char else c
  }

  /** `s.toLowerCase()` restricted to ASCII letters. */
  function ToLower(s: string): (r: string)
    ensures |r| == |s|
    ensures forall i :: 0 <= i < |s| ==> r[i] == LowerChar(s[i])
  {
    seq(|s|, i requires 0 <= i < |s| => LowerChar(s[i]))
  }

  predicate IsDigit(c: char) {
    '0' <= c <= '9'
  }

  predicate AllDigits(s: string) {
    forall i :: 0 <= i < |s| ==> IsDigit(s[i])
  }

  /** The longest prefix of `s` made of decimal digits. */
  function DigitPrefix(s: string): (r: string)
    ensures |r| <= |s| && r == s[..|r|]
    ensures AllDigits(r)
    ensures |r| == |s| || !IsDigit(s[|r|])
  {
    if s != [] && IsDigit(s[0]) then
      var rest := DigitPrefix(s[1..]);
      assert s[..|rest| + 1] == [s[0]] + rest;
      [s[0]] + rest
    else []
  }

  /** The number a string of decimal digits denotes. */
  function DigitsValue(d: string): nat
    requires AllDigits(d)
  {
    if d == [] then 0
    else DigitsValue(d[..|d| - 1]) * 10 + (d[|d| - 1] as int - '0' as int)
  }

  /** `parseInt(s, 10)`: leading whitespace skipped, an optional sign, then the longest
      run of decimal digits; everything after it is ignored. None stands for NaN: no
      digit follows the sign. */
  function ParseInt(s: string): (r: Option<int>)
    ensures r.None? <==> DigitPrefix(SignlessPart(TrimStart(s))) == []
  {
    var t := TrimStart(s);
    var d := DigitPrefix(SignlessPart(t));
    if d == [] then None
    else
      var v: int := DigitsValue(d);
      if t[0] == '-' then Some(-v) else Some(v)
  }

  /** The text after a leading sign, if there is one. */
  function SignlessPart(t: string): string {
    if t != [] && (t[0] == '-' || t[0] == '+') then t[1..] else t
  }

  /** The decimal digits of `n`, without leading zeros. */
  function DecimalText(n: nat): (r: string)
    ensures r != [] && AllDigits(r)
  {
    var last := ['0' + (n % 10) as char];
    if n < 10 then last else DecimalText(n / 10) + last
  }

  /** `String(n)` for an integer. */
  function IntText(n: int): string {
    if n < 0 then "-" + DecimalText(-n) else DecimalText(n)
  }

  lemma {:induction false} DecimalTextValue(n: nat)
    ensures DigitsValue(DecimalText(n)) == n
    decreases n
  {
    var d := DecimalText(n);
    if n >= 10 {
      DecimalTextValue(n / 10);
      assert d[..|d| - 1] == DecimalText(n / 10);
    }
  }

  /** The digit prefix of a digit string followed by a non-digit is the digit string. */
  lemma {:induction false} DigitPrefixOfDigits(d: string, tail: string)
    requires AllDigits(d)
    requires tail == [] || !IsDigit(tail[0])
    ensures DigitPrefix(d + tail) == d
    decreases |d|
  {
    if d == [] {
      assert d + tail == tail;
    } else {
      assert (d + tail)[1..] == d[1..] + tail;
      DigitPrefixOfDigits(d[1..], tail);
      assert d == [d[0]] + d[1..];
    }
  }

  /** parseInt reads back any integer written in decimal, whatever non-digit text follows
      it ("4", "-2", "3.5" and "12px" read as 4, -2, 3 and 12). */
  lemma ParseIntOfIntText(n: int, tail: string)
    requires tail == [] || !IsDigit(tail[0])
    ensures ParseInt(IntText(n) + tail) == Some(n)
  {
    var digits := DecimalText(if n < 0 then -n else n);
    DecimalTextValue(if n < 0 then -n else n);
    if n < 0 {
      assert IntText(n) + tail == ['-'] + (digits + tail);
      ParseIntOfNegative(digits, tail);
    } else {
      assert IntText(n) + tail == digits + tail;
      ParseIntOfUnsigned(digits, tail);
    }
  }

  /** A run of digits followed by a non-digit reads as the number the digits denote. */
  lemma ParseIntOfUnsigned(d: string, tail: string)
    requires d != [] && AllDigits(d)
    requires tail == [] || !IsDigit(tail[0])
    ensures ParseInt(d + tail) == Some(DigitsValue(d))
  {
    var s := d + tail;
    assert s[0] == d[0] && IsDigit(s[0]);
    TrimStartOfUnspaced(s);
    assert SignlessPart(s) == s;
    DigitPrefixOfDigits(d, tail);
  }

  /** A minus sign, a run of digits and a non-digit read as the negated number. */
  lemma ParseIntOfNegative(d: string, tail: string)
    requires d != [] && AllDigits(d)
    requires tail == [] || !IsDigit(tail[0])
    ensures ParseInt(['-'] + (d + tail)) == Some(-(DigitsValue(d) as int))
  {
    var s := ['-'] + (d + tail);
    assert s[1..] == d + tail;
    DigitPrefixOfDigits(d, tail);
    NegativeRead(s, d);
  }

  /** A minus sign followed by the digits `d` reads as minus their value. */
  lemma NegativeRead(s: string, d: string)
    requires s != [] && s[0] == '-' && d != [] && DigitPrefix(s[1..]) == d
    ensures ParseInt(s) == Some(-(DigitsValue(d) as int))
  {
    TrimStartOfUnspaced(s);
  }

  /** Text that does not start with whitespace is its own TrimStart. */
  lemma TrimStartOfUnspaced(s: string)
    requires s != [] && !IsSpace(s[0])
    ensures TrimStart(s) == s
  {
  }

  /** A text with no digit after its optional sign reads as NaN. */
  lemma ParseIntNaN(s: string)
    requires var t := SignlessPart(TrimStart(s)); t == [] || !IsDigit(t[0])
    ensures ParseInt(s).None?
  {
  }
}
